=== FILE: README.md ===
# rn-tracker visualisations in Dafny

This project models the computational core of the rn-tracker app's GPU
visualisations, together with the settings screen that edits the data they show.

**Water view (`WaterViz`).** A 16 x 16 cellular water simulation runs on two grid
buffers of 64 x 64 cells. Each cell holds a velocity `(x, y)`, a density `z` and an
unused slot `w`. The model covers:

- the grid helpers;
- the obstacle test;
- the velocity rule: the cheapest neighbour, with gravity, ties drawn at random;
- the per-cell flow rule;
- the source clamp;
- the compute, world-initialisation and obstacle-moving shaders;
- the even/odd pipeline pair;
- the per-frame accumulator that runs a batch of sub-steps every 50 ms and then
  renders.

The main results are these:

- One sub-step without a source keeps the total water on the grid exactly.
- A sub-step keeps every density non-negative and every velocity pointing on the
  grid.
- Both facts carry over to a whole frame, whatever the number of sub-steps.

**Tile view (`TilesViz`).** The tracker's daily counts are laid out on a 7 x 6 board,
padded with -1 and -2. A fragment is classified against the goal. The layout loses
no count.

**Box view (`BoxesViz`).** There is a 3 x 3 x 3 stack of boxes:

- The numbering of the boxes is a bijection.
- The lit boxes are exactly the first ones, up to the latest count.
- The fragment's search returns the albedo of the nearest lit box the ray meets.
  Among equally near boxes it returns the first in loop order.

**Settings (`app/settings.tsx`).** The goal field only accepts a positive number.
"Reset today's count" zeroes the last entry and keeps the earlier ones.

Floating-point values are modelled as exact reals. Velocities are whole cells,
because the rule only produces the offsets (0, 0), (0, ±1) and (±1, 0).

The modules follow the source's structure:

| module | contents |
|---|---|
| Wrappers | Option and Result |
| Sums | grid sums and their algebra |
| Grid | buffers, `isValidCoord`, `coordsToIndex`, `getCell`, `setCell`, `setVelocity`, `addDensity` |
| Obstacles | `BoxObstacle`, `isInsideObstacle`, `isValidFlowOut` |
| Velocity | `computeVelocity` |
| Flow | `flowFromCell`, `getMinimumInFlow`, `mainCompute` |
| Conservation | mass conservation of a sub-step |
| World | `mainInitWorld` |
| Mover | `mainMoveObstacles` |
| Driver | the pipeline pair, `tick`, `onFrame` and `applyMovedObstacles` |
| Palette | the colours shared by the tile and box views |
| Tiles | `TilesViz` |
| Boxes | `BoxesViz` |
| Settings | `app/settings.tsx` |

## Model

| member | source | states |
|---|---|---|
| Grid.IndexBijection | components/gpu-viz/WaterViz.tsx:134-153 | `coordsToIndex` maps the valid coordinates one-to-one onto 0 .. 255, with column and row as its inverse |
| Grid.IndexInjective | components/gpu-viz/WaterViz.tsx:134-153 | distinct valid coordinates address distinct cells |
| Grid.OffGridReadsAlias | components/gpu-viz/WaterViz.tsx:146-162 | `getCell` has no range check: a coordinate one grid width off to the side reads a cell of the neighbouring row, so (16, y) is cell (0, y + 1) and (-1, y) is cell (15, y - 1) |
| Grid.SetCell | components/gpu-viz/WaterViz.tsx:164-172 | after `setCell`, reading (x, y) gives the value written, and every other index is unchanged |
| Grid.SetVelocity | components/gpu-viz/WaterViz.tsx:174-183 | `setVelocity` changes only the velocity of its own cell; every density and unused slot is kept |
| Grid.AddDensity | components/gpu-viz/WaterViz.tsx:185-193 | `addDensity` raises the density of its cell by the amount given and changes nothing else |
| Obstacles.SpanMin | components/gpu-viz/WaterViz.tsx:237-240 | the lower edge `max(0, c - s/2)` is non-negative, is at least c - s/2, and is one of the two |
| Obstacles.SpanMax | components/gpu-viz/WaterViz.tsx:237-240 | the upper edge `max(0, c + s/2)` is non-negative, is at least c + s/2, and is one of the two |
| Obstacles.IsInsideObstacle | components/gpu-viz/WaterViz.tsx:228-249 | (x, y) is inside exactly when some enabled obstacle's clamped box contains it |
| Obstacles.DisabledObstaclesAreInert | components/gpu-viz/WaterViz.tsx:228-265 | with every obstacle disabled, flow may go out exactly to the valid coordinates |
| Velocity.MinCostAmong | components/gpu-viz/WaterViz.tsx:280-310 | the running least cost is reached by an eligible option and is below every eligible option seen so far |
| Velocity.TiedMembers | components/gpu-viz/WaterViz.tsx:289-310 | every direction in the tie list is eligible and costs the least cost |
| Velocity.TiedContains | components/gpu-viz/WaterViz.tsx:289-310 | every eligible direction that costs the least cost is in the tie list |
| Velocity.ScanInvariant | components/gpu-viz/WaterViz.tsx:289-310 | the loop ends with the least cost over all eligible options and the list of all directions tied at it, in visiting order |
| Velocity.TiesAreTheCheapestOptions | components/gpu-viz/WaterViz.tsx:280-310 | the tie list is exactly the cheapest eligible options; it is never empty and never longer than five |
| Velocity.TiesReadDensityOnly | components/gpu-viz/WaterViz.tsx:289-296 | the choice depends only on densities: rewriting velocities leaves every tie list unchanged |
| Velocity.PickIndex | components/gpu-viz/WaterViz.tsx:312 | the random index `u32(rand01() * count)` is always below the tie count |
| Velocity.ComputeVelocity | components/gpu-viz/WaterViz.tsx:267-315 | the chosen direction is "stay" or leads to a cell mass may flow into; it is one of the cheapest eligible options; no eligible neighbour is cheaper, nor is staying |
| Velocity.FiveWayTieOverflowsChoices | components/gpu-viz/WaterViz.tsx:284-302 | on a board where a cell ties with all four neighbours, the shader's tie count reaches 5 while `dir_choices` has 4 slots, so a draw can index past the array |
| Flow.StillMeansZeroVelocity | components/gpu-viz/WaterViz.tsx:208 | `length(v) < 0.5` holds for a whole-cell velocity exactly when it is zero |
| Flow.OutFlow | components/gpu-viz/WaterViz.tsx:201-210 | a still cell sends nothing; a moving cell sends `min(max(0.01, 0.3 + 0.1 diff), z)`; a non-negative density sends between 0 and all of it |
| Flow.FlowFromCell | components/gpu-viz/WaterViz.tsx:195-223 | an invalid source gives 0; a cell keeps its density minus its out-flow; it gives its out-flow to the cell its velocity points at and nothing to any other cell |
| Flow.SourceCentreGetsIntensity | components/gpu-viz/WaterViz.tsx:475-488 | because the radius is raised to at least one cell, the source is never empty: the cell nearest its centre always gets the intensity, wherever the centre lies |
| Flow.ComputeCell | components/gpu-viz/WaterViz.tsx:490-518 | the new cell takes a velocity the rule allows and keeps its unused slot; its density is the larger of the summed in-flow and the source minimum |
| Flow.Step | components/gpu-viz/WaterViz.tsx:490-518 | one dispatch recomputes every grid cell from the input buffer and leaves the output's cells past the grid untouched |
| Flow.StepPreservesWellFormed | components/gpu-viz/WaterViz.tsx:490-518 | if every density is non-negative and every velocity points on the grid, the same holds after a sub-step |
| Flow.CellKeepsInvariant | components/gpu-viz/WaterViz.tsx:490-518 | a cell with non-negative in-flow gets a non-negative density and a velocity that stays on the grid |
| Flow.InFlowNonNegative | components/gpu-viz/WaterViz.tsx:508-512 | with non-negative densities, the five summed flows into a cell are non-negative |
| Flow.SourceClamp | components/gpu-viz/WaterViz.tsx:514-515 | every output density reaches the source minimum, so cells in the source disc hold at least the intensity |
| Conservation.TotalAfterWrite | components/gpu-viz/WaterViz.tsx:164-172 | writing one grid cell changes the grid total by exactly that cell's change of density |
| Conservation.FlowFromNeighbor | components/gpu-viz/WaterViz.tsx:212-220 | a neighbour sends its out-flow to a cell exactly when its velocity points back at that cell |
| Conservation.OutFlowSplits | components/gpu-viz/WaterViz.tsx:201-220 | a cell's out-flow goes in exactly one of the four directions |
| Conservation.InFlowIsConserved | components/gpu-viz/WaterViz.tsx:508-512 | summed over the grid, the in-flows equal the total density: nothing is lost or created in transit |
| Conservation.StepConservesMass | components/gpu-viz/WaterViz.tsx:490-518 | without a source, a sub-step keeps the grid's total density exactly and keeps the invariant |
| World.InitWorld | components/gpu-viz/WaterViz.tsx:319-348 | obstacle and invalid cells are empty; open cells below half the grid hold depth 1 - y/8, in (0, 1]; velocities are zero; cells past the grid are untouched |
| World.InitWorldIsWellFormed | components/gpu-viz/WaterViz.tsx:319-348 | the initial world satisfies the invariant every sub-step keeps |
| World.InitialWaterFillsLowerHalf | components/gpu-viz/WaterViz.tsx:329-337 | with no obstacle enabled, a cell holds water exactly when it lies in the lower half |
| Mover.ClearRun | components/gpu-viz/WaterViz.tsx:376-387 | one line of a push: the collected amount is the run's total density; on the grid the run is emptied and the amount lands on the destination cell; velocities are untouched |
| Mover.SweepLines | components/gpu-viz/WaterViz.tsx:375-433 | a whole `if (diff...)` block: when the lines, the run and the destination all lie on the grid, on every line the run's density moves to its destination and nothing else changes |
| Mover.RecomputeColumn | components/gpu-viz/WaterViz.tsx:437-447 | every recomputed cell of a column gets a velocity the rule allows on the current densities; densities and all other cells are kept |
| Mover.ColumnsDisjoint | components/gpu-viz/WaterViz.tsx:437-447 | two columns whose distance is not a multiple of the grid width share no buffer cell, whatever their rows, on the grid or off it |
| Mover.ColumnsApart | components/gpu-viz/WaterViz.tsx:437-447 | when the left column is on the grid, the right column lies an odd number of columns beyond it, so the second loop never touches a cell of the first, even when the right column falls off the grid |
| Mover.SweepMoves | components/gpu-viz/WaterViz.tsx:362-433 | an obstacle that did not move causes no push; one that moved along one axis pushes the water ahead of it onto the cells beyond its edge |
| Mover.RecomputeColumns | components/gpu-viz/WaterViz.tsx:437-447 | after both loops, the cells of the right column carry velocities the rule allows on the final densities, and so do those of the left column whenever it is on the grid; densities are kept, and no cell outside the two columns changes |
| Mover.MoveObstacle | components/gpu-viz/WaterViz.tsx:354-447 | a disabled obstacle changes nothing; an obstacle that did not move keeps every density; a moved one pushes water along one axis, then re-aims the right column and, whenever it is on the grid, the left column; no velocity outside the two columns changes |
| Mover.MoveObstacles | components/gpu-viz/WaterViz.tsx:350-449 | with nothing enabled the buffer is unchanged; if nothing moved, every density is kept; the unused slot is always kept |
| Driver.Start | components/gpu-viz/WaterViz.tsx:713-734 | the simulation starts on the even set, with the accumulator at zero and the initial world, which satisfies the invariant |
| Driver.Tick | components/gpu-viz/WaterViz.tsx:738-750 | a tick swaps the primary set; the new set reads the buffer the previous tick wrote, and writes the sub-step's result of it |
| Driver.RunTicks | components/gpu-viz/WaterViz.tsx:775-777 | n ticks leave the primary set flipped exactly when n is odd, and leave obstacles and the accumulator alone |
| Driver.RunTicksDisplayPrevious | components/gpu-viz/WaterViz.tsx:775-778 | after a batch, the buffer rendered is the one the next-to-last sub-step wrote, not the last |
| Driver.RunTicksPreserve | components/gpu-viz/WaterViz.tsx:775-777 | an invariant that every sub-step keeps holds after any number of ticks |
| Driver.RunTicksKeep | components/gpu-viz/WaterViz.tsx:775-777 | a measure that every sub-step keeps under the invariant is unchanged after any number of ticks |
| Driver.SubStepConservesMass | components/gpu-viz/WaterViz.tsx:738-750 | a `compute` dispatch with zero source intensity keeps the total water and the invariant |
| Driver.Frame | components/gpu-viz/WaterViz.tsx:770-783 | a frame renders exactly when the accumulated time reaches 50 ms, and then subtracts 50; otherwise it only accumulates; what it renders is the primary set's input |
| Driver.FrameKeepsPrimary | components/gpu-viz/WaterViz.tsx:736-783 | a frame flips the primary set exactly when it runs an odd number of sub-steps; at the component's 128 sub-steps per tick the primary set never changes |
| Driver.FrameRendersPenultimate | components/gpu-viz/WaterViz.tsx:770-783 | a rendering frame shows the state one sub-step before the newest |
| Driver.FrameKeepsAccumulatorBounded | components/gpu-viz/WaterViz.tsx:770-783 | with frames of at most 50 ms, the accumulator stays in [0, 50) |
| Driver.FrameConservesMass | components/gpu-viz/WaterViz.tsx:770-783 | a frame with the source off keeps the total water exactly and keeps the invariant |
| Driver.ApplyMovedObstacles | components/gpu-viz/WaterViz.tsx:682-689 | after the move, both obstacle buffers hold the new obstacles; the primary set and the accumulator are kept |
| Tiles.ValuesState | components/gpu-viz/TilesViz.tsx:102-107 | up to 31 counts give 42 values: 6 paddings, the counts in order, unfilled markers up to slot 31, and 5 paddings; more than 31 counts is an error |
| Tiles.DaysRoundTrip | components/gpu-viz/TilesViz.tsx:102-107 | reading the day slots back up to the first unfilled marker returns the tracker list unchanged |
| Tiles.TileIndexBijection | components/gpu-viz/TilesViz.tsx:70-72 | `y * span.x + x` maps the 7 x 6 board one-to-one onto the 42 values |
| Tiles.FragmentTile | components/gpu-viz/TilesViz.tsx:70-71 | a texture coordinate in the quad picks a tile on the board, the one whose cell contains the scaled coordinate |
| Tiles.AsI32 | components/gpu-viz/TilesViz.tsx:78 | `i32(limit)` lies in the signed 32-bit range and is congruent to the goal modulo 2^32 |
| Tiles.BoardShading | components/gpu-viz/TilesViz.tsx:66-107 | padding tiles, and only they, are clear; a day is tan exactly when its count is below the goal; days not reached yet are tan |
| Tiles.DayColourShowsGoal | components/gpu-viz/TilesViz.tsx:74-84 | a day tile's colour on screen tells whether its count reached the goal: it is the tan colour exactly when the count is below the goal, and never the clear colour |
| Boxes.BoxIndexBijection | components/gpu-viz/BoxesViz.tsx:238 | `k * X * Y + (Y - j - 1) * X + i` numbers the 27 boxes one-to-one, with BoxWithIndex as its inverse |
| Boxes.BoxMatrixState | components/gpu-viz/BoxesViz.tsx:233-260 | the matrix is 3 x 3 x 3; a box is lit exactly when its number plus one is at most the latest count, always for an empty list; an unlit box is clear; a lit box is tan while its number plus one is below the goal and green from there on |
| Boxes.BoxActivation | components/gpu-viz/BoxesViz.tsx:238-255 | a box is lit exactly when its number plus one is at most the latest count, always for an empty list; an unlit box is clear; a lit one is tan below the goal and green from it |
| Boxes.LitBoxesAreTheFirst | components/gpu-viz/BoxesViz.tsx:233-260 | the lit boxes are exactly numbers 0 .. c - 1, where c is the latest count clamped to 0 .. 27 |
| Boxes.PickTracksWinner | components/gpu-viz/BoxesViz.tsx:191-211 | the loop's found flag, distance and colour describe the box it settled on, and the colour stays clear while none is found |
| Boxes.WinnerIsNearest | components/gpu-viz/BoxesViz.tsx:191-211 | the box settled on is a lit box the ray meets, at a distance no larger than any other; each earlier such box is strictly farther; there is none exactly when no lit box is met |
| Boxes.Search | components/gpu-viz/BoxesViz.tsx:191-211 | the three nested loops leave the colour of the loop state after all 27 visits |
| Boxes.FragmentColour | components/gpu-viz/BoxesViz.tsx:185-214 | a ray that misses the stack, or meets no lit box, gives the zero colour; otherwise the result is the albedo of the nearest lit box met, the first in loop order among equally near ones |
| Settings.UpdateGoal | app/settings.tsx:22-27 | the goal changes only to a parsed positive value, and always does for one; NaN, zero and negatives leave it alone |
| Settings.GoalStaysPositive | app/settings.tsx:22-27 | whatever is typed, a positive goal stays positive |
| Settings.SpliceFromStart | app/settings.tsx:34 | `splice(0, n)` removes the first n entries, clamped to 0 .. length |
| Settings.ResetTodayShape | app/settings.tsx:32-34 | resetting keeps the length and every earlier day and sets today's count to 0; an empty list becomes [0] |
| Settings.ResetTodayIdempotent | app/settings.tsx:32-34 | pressing reset twice gives the same list as pressing it once |

## Left out

- The pseudo-random generator (`setupRandomSeed`, `rand01`) is left out. Each cell's draw is a real-valued parameter, and the model takes its fractional part as the shader does.
- 32-bit floating-point rounding is not modelled. Densities, costs and flows are exact reals, so conservation is exact in the model and only approximate on the GPU.
- Rendering is not modelled: the water view's colour ramp, vertex shaders, opacities, and the box and tile views' ray set-up.
- Ray-box intersection is taken as an input to the box fragment: whether each box and the bounding box are met, and at which distance.
- WebGPU plumbing is not modelled: buffer creation, bind groups, dispatch sizes, `flush`, canvas context, React hooks, and disposal.
- The timer that sets `sourceIntensity` to 0.1 and back to 0 after one second is not modelled. The intensity is a parameter of each frame.
- `obstaclesToConcrete` is not modelled, nor the conversion of fractional obstacle positions to cells. Obstacles enter the model already in cell units.
- Out-of-range buffer access is not modelled as the WGSL runtime would perform it. The model reads the zero cell and drops the write, one of the behaviours the WGSL specification permits.
- The grid size stays at 16. Other uniform values are not explored.
- `Date.now()` and `requestAnimationFrame` are left out. A frame receives its elapsed milliseconds as a parameter.
- Velocity.ComputeVelocity: draws from a tie list of up to five entries, as the corrected rule under "## Findings" does. On a five-way tie a draw of index 4 returns (-1, 0), the fifth option. The shader's 4-slot `dir_choices` does not hold that option when the runtime drops the out-of-range store, so there the model differs from the code as written; what the code returns then depends on how the runtime treats the out-of-range store and read.
- Driver.Frame: the batch size is a parameter rather than the constant 128, so the properties hold for any batch size, 128 included.
- Mover.MoveObstacles: does not state that the total water is kept. The one-axis pushes move whole runs onto the grid, but a push off the grid, or a diagonal move, can drop or duplicate water in the source, and the model leaves those totals unstated.
- Mover.SweepMoves: its push property is stated only for pushes whose cells all lie on the grid, and only for moves along a single axis. Mover.SweepLines is likewise stated only for on-grid sweeps.
- Driver.ApplyMovedObstacles is modelled, but no caller in the source invokes it. The frame loop never moves obstacles.
- Mover.RecomputeColumns: does not promise that the buffer stays well formed. When the new box's right edge is at x = 14, the right column x = 16 is really column 0 of the next row. That cell can be re-aimed to (-1, 0), which points off the grid and breaks the invariant the conservation proof relies on. No caller reaches this, because the frame loop never moves obstacles.
- Settings.UpdateGoal: `Number.parseInt` is not modelled. The handler receives its result, with None standing for NaN.
- Settings.ResetTodayShape: `splice` also mutates the previous state's array. The model treats the list as a value and states only the new list.
- Tiles.BoardShading: stated only for non-negative counts and a goal below 2^31, and so is Tiles.DayColourShowsGoal. Counts are unbounded integers in the model, but the source keeps them in an `i32` array. There a count of 2^31 or more would wrap negative and be drawn clear, so these lemmas hold for the source only on counts below 2^31. Only the +1 button raises a count. The settings screen stores any positive parse, so a goal of 2^31 or more, such as 3000000000, can be reached. The fragment then compares against a negative `i32(limit)`; Tiles.AsI32 models that conversion, but these two lemmas do not cover such goals.
- Tiles.FragmentTile: requires a texture coordinate inside the quad, 0 <= u < 1 and 0 < v <= 1. The quad's edges fall outside the board, so those coordinates are not modelled.
- Box opacities are not modelled. Neither is the fact that `boxMatrixState` is only recomputed when the tracker changes, not when the goal does.
- Some views compare against the goal in two ways: the tile view uses `value < limit`, while box colour uses `index + 1 < goal`. The model keeps each comparison as written.

## Findings

| source | as written | input that shows it | evidently intended | confidence | as-written member | corrected member |
|---|---|---|---|---|---|---|
| components/gpu-viz/WaterViz.tsx:284-302 | `dir_choices` has 4 slots, but "stay" plus four equally cheap neighbours makes 5 ties: the fifth store is out of bounds and `u32(rand01() * 5)` can read index 4 | cell (5, 5) with density 1, the cell above at 0.5 and the cell below at 1.5, no obstacles: every option costs 1 | room for all five tied directions, the draw choosing among them | not executed | Velocity.FiveWayTieOverflowsChoices | Velocity.TiesAreTheCheapestOptions |

=== FILE: boxes.dfy ===
/**
  The box view: a 3 x 3 x 3 stack of boxes, one per unit of the day's count.
  The component numbers the boxes, lights the first ones up to the latest
  count and colours each against the goal; the fragment shader casts a ray
  and shows the lit box it meets first.

  Ray and box intersection is floating-point geometry and is not modelled:
  the fragment receives, for each box, whether the ray meets it and at which
  distance, and whether the ray meets the bounding box of the whole stack.
 */
module Boxes {
  import opened Wrappers
  import opened Palette

  /** Boxes along each axis (`X`, `Y`, `Z`). */
  const X: int := 3
  const Y: int := 3
  const Z: int := 3
  /** X * Y * Z. */
  const BoxCount: int := 27

  predicate InMatrix(i: int, j: int, k: int)
  {
    0 <= i < X && 0 <= j < Y && 0 <= k < Z
  }

  /** The number of box (i, j, k): layers along k, rows counted from the top (j = Y - 1) down, then i. */
  function BoxIndex(i: int, j: int, k: int): int
  {
    k * X * Y + (Y - j - 1) * X + i
  }

  /** The box with a given number. */
  function BoxWithIndex(n: int): (b: (int, int, int))
    ensures 0 <= n < BoxCount ==> InMatrix(b.0, b.1, b.2)
  {
    (n % X, Y - 1 - (n / X) % Y, n / (X * Y))
  }

  /** Box numbering is a bijection from the matrix onto 0 .. 26, with BoxWithIndex as inverse. */
  lemma BoxIndexBijection(i: int, j: int, k: int, n: int)
    ensures InMatrix(i, j, k) ==> 0 <= BoxIndex(i, j, k) < BoxCount && BoxWithIndex(BoxIndex(i, j, k)) == (i, j, k)
    ensures 0 <= n < BoxCount ==> var b := BoxWithIndex(n); BoxIndex(b.0, b.1, b.2) == n
  {
  }

  // ------------------------------------------------------------------ the matrix the component builds

  /** The latest day's count: the tracker's last entry, undefined for an empty list. */
  function LatestCount(tracker: seq<int>): Option<int>
  {
    if |tracker| == 0 then None else Some(tracker[|tracker| - 1])
  }

  /** `BoxStruct`: the active flag (a u32) and the albedo class. */
  datatype BoxState = BoxState(isActive: nat, albedo: Shade)

  /**
    The entry `boxMatrixState` builds for box (i, j, k): unlit when its number
    plus one exceeds the latest count (a comparison with `undefined` is false,
    so an empty list lights every box), otherwise lit, tan while its number plus
    one is below the goal and green from there on.
   */
  function BoxStateOf(i: int, j: int, k: int, tracker: seq<int>, goal: int): BoxState
  {
    var index := BoxIndex(i, j, k);
    var latest := LatestCount(tracker);
    if latest.Some? && index + 1 > latest.value then BoxState(0, Clear)
    else BoxState(1, if index + 1 < goal then Tan else Green)
  }

  type Matrix = seq<seq<seq<BoxState>>>

  /** An X x Y x Z matrix. */
  predicate IsMatrix(m: Matrix)
  {
    |m| == X && forall i :: 0 <= i < X ==> |m[i]| == Y && forall j :: 0 <= j < Y ==> |m[i][j]| == Z
  }

  /** The box with number n in the matrix. */
  function BoxNumbered(m: Matrix, n: int): BoxState
    requires IsMatrix(m) && 0 <= n < BoxCount
  {
    var b := BoxWithIndex(n);
    m[b.0][b.1][b.2]
  }

  /**
    `boxMatrixState`: box (i, j, k) is lit exactly when its number plus one is
    at most the latest count (always, for an empty list); an unlit box has a
    zero albedo, a lit one is tan while its number plus one is below the goal
    and green from there on.
   */
  function BoxMatrixState(tracker: seq<int>, goal: int): (m: Matrix)
    ensures IsMatrix(m)
    ensures forall i, j, k :: InMatrix(i, j, k) ==> m[i][j][k] == BoxStateOf(i, j, k, tracker, goal)
    ensures forall i, j, k :: InMatrix(i, j, k) ==>
              (m[i][j][k].isActive != 0 <==> tracker == [] || BoxIndex(i, j, k) + 1 <= tracker[|tracker| - 1])
    ensures forall i, j, k :: InMatrix(i, j, k) && m[i][j][k].isActive == 0 ==> m[i][j][k].albedo == Clear
    ensures forall i, j, k :: InMatrix(i, j, k) && m[i][j][k].isActive != 0 ==>
              m[i][j][k].isActive == 1 && m[i][j][k].albedo == (if BoxIndex(i, j, k) + 1 < goal then Tan else Green)
  {
    seq(X, i => seq(Y, j => seq(Z, k => BoxStateOf(i, j, k, tracker, goal))))
  }

  /**
    A box is lit exactly when its number is below the latest count (always,
    for an empty list); an unlit box has a zero albedo, and a lit one is tan
    when its number plus one is below the goal, green otherwise.
   */
  lemma BoxActivation(tracker: seq<int>, goal: int, n: int)
    requires 0 <= n < BoxCount
    ensures var b := BoxNumbered(BoxMatrixState(tracker, goal), n);
            (b.isActive != 0 <==> tracker == [] || n + 1 <= tracker[|tracker| - 1])
            && (b.isActive == 0 ==> b.albedo == Clear)
            && (b.isActive != 0 ==> b.isActive == 1 && b.albedo == (if n + 1 < goal then Tan else Green))
  {
    BoxIndexBijection(0, 0, 0, n);
  }

  /** The numbers of the lit boxes. */
  function LitBoxes(m: Matrix): set<int>
    requires IsMatrix(m)
  {
    set n | 0 <= n < BoxCount && BoxNumbered(m, n).isActive != 0
  }

  /** The number of boxes the latest count lights: the count, kept within 0 .. BoxCount. */
  function LitCount(tracker: seq<int>): int
  {
    var latest := LatestCount(tracker);
    if latest.None? || latest.value >= BoxCount then BoxCount
    else if latest.value < 0 then 0
    else latest.value
  }

  /** The numbers 0 .. c - 1. */
  function Below(c: nat): (r: set<int>)
    ensures forall n :: n in r <==> 0 <= n < c
    ensures |r| == c
  {
    if c == 0 then {} else Below(c - 1) + {c - 1}
  }

  /** The view lights the first boxes, as many as the latest count (all of them for an empty list), at most all 27. */
  lemma LitBoxesAreTheFirst(tracker: seq<int>, goal: int)
    ensures LitBoxes(BoxMatrixState(tracker, goal)) == Below(LitCount(tracker))
    ensures |LitBoxes(BoxMatrixState(tracker, goal))| == LitCount(tracker)
  {
    var m := BoxMatrixState(tracker, goal);
    forall n | 0 <= n < BoxCount
      ensures BoxNumbered(m, n).isActive != 0 <==> n < LitCount(tracker)
    {
      BoxActivation(tracker, goal, n);
    }
  }

  // ------------------------------------------------------------------ the fragment's search

  /** The fragment's intersection result for one box: whether the ray meets it, and where it enters. */
  datatype Hit = Hit(intersects: bool, tMin: real)

  /** The box the fragment's loops visit n-th: i outermost, then j, then k (Y * Z = 9 and Z = 3). */
  function Visited(n: int): (int, int, int)
  {
    (n / 9, (n / 3) % 3, n % 3)
  }

  /** The loops visit box (i, j, k) at step 9i + 3j + k, that is i * Y * Z + j * Z + k. */
  lemma VisitOrder(i: int, j: int, k: int)
    requires InMatrix(i, j, k)
    ensures Visited(9 * i + 3 * j + k) == (i, j, k)
  {
  }

  /** Visiting box (i, j, k) is step 9i + 3j + k of the search. */
  lemma VisitStep(m: Matrix, hits: (int, int, int) -> Hit, i: int, j: int, k: int, n: int)
    requires IsMatrix(m) && InMatrix(i, j, k) && n == 9 * i + 3 * j + k
    ensures 0 <= n < BoxCount
    ensures PickAmong(m, hits, n + 1) == Consider(PickAmong(m, hits, n), m[i][j][k], hits(i, j, k))
  {
    VisitOrder(i, j, k);
  }

  function BoxVisited(m: Matrix, n: int): BoxState
    requires IsMatrix(m) && 0 <= n < BoxCount
  {
    var v := Visited(n);
    m[v.0][v.1][v.2]
  }

  function HitVisited(hits: (int, int, int) -> Hit, n: int): Hit
  {
    var v := Visited(n);
    hits(v.0, v.1, v.2)
  }

  /** The n-th visited box is lit and met by the ray. */
  predicate Candidate(m: Matrix, hits: (int, int, int) -> Hit, n: int)
    requires IsMatrix(m)
  {
    0 <= n < BoxCount && BoxVisited(m, n).isActive != 0 && HitVisited(hits, n).intersects
  }

  /** The loop's state: whether a hit was found, its distance and the colour so far. */
  datatype Pick = Pick(found: bool, tMin: real, colour: Shade)

  /** One iteration: an unlit box is skipped; a met box replaces the pick if none was found or it is strictly nearer. */
  function Consider(p: Pick, b: BoxState, h: Hit): Pick
  {
    if b.isActive == 0 then p
    else if h.intersects && (!p.found || h.tMin < p.tMin) then Pick(true, h.tMin, b.albedo)
    else p
  }

  /** The state after the first n iterations; `tMin` starts zero-initialised and `color` as the zero vector. */
  function PickAmong(m: Matrix, hits: (int, int, int) -> Hit, n: int): Pick
    requires IsMatrix(m) && 0 <= n <= BoxCount
  {
    if n == 0 then Pick(false, 0.0, Clear)
    else Consider(PickAmong(m, hits, n - 1), BoxVisited(m, n - 1), HitVisited(hits, n - 1))
  }

  /**
    The position of the box the search settles on among the first n visits,
    or -1 when none is a candidate: a candidate replaces the current one only
    when strictly nearer.
   */
  ghost function Winner(m: Matrix, hits: (int, int, int) -> Hit, n: int): (w: int)
    requires IsMatrix(m) && 0 <= n <= BoxCount
    ensures -1 <= w < n
  {
    if n == 0 then -1
    else
      var w := Winner(m, hits, n - 1);
      if Candidate(m, hits, n - 1) && (w < 0 || HitVisited(hits, n - 1).tMin < HitVisited(hits, w).tMin) then n - 1
      else w
  }

  /** The loop's state describes the winner: found exactly when there is one, with its distance and albedo. */
  lemma {:induction false} PickTracksWinner(m: Matrix, hits: (int, int, int) -> Hit, n: int)
    requires IsMatrix(m) && 0 <= n <= BoxCount
    ensures var p := PickAmong(m, hits, n);
            var w := Winner(m, hits, n);
            (p.found <==> 0 <= w)
            && (w < 0 ==> p.colour == Clear)
            && (0 <= w ==> p.tMin == HitVisited(hits, w).tMin && p.colour == BoxVisited(m, w).albedo)
  {
    if n > 0 {
      PickTracksWinner(m, hits, n - 1);
    }
  }

  /**
    The winner is the nearest candidate, the first in visiting order among
    equally near ones, and there is none exactly when no box is a candidate.
   */
  lemma {:induction false} WinnerIsNearest(m: Matrix, hits: (int, int, int) -> Hit, n: int)
    requires IsMatrix(m) && 0 <= n <= BoxCount
    ensures var w := Winner(m, hits, n);
            (w < 0 <==> forall q :: 0 <= q < n ==> !Candidate(m, hits, q))
            && (0 <= w ==> Candidate(m, hits, w))
            && (0 <= w ==> forall r :: 0 <= r < n && Candidate(m, hits, r) ==> HitVisited(hits, w).tMin <= HitVisited(hits, r).tMin)
            && (0 <= w ==> forall r :: 0 <= r < w && Candidate(m, hits, r) ==> HitVisited(hits, w).tMin < HitVisited(hits, r).tMin)
  {
    if n > 0 {
      WinnerIsNearest(m, hits, n - 1);
    }
  }

  /** After all 27 visits, the search's colour is the nearest candidate's albedo, or clear when there is none. */
  lemma SearchFindsNearest(m: Matrix, hits: (int, int, int) -> Hit)
    requires IsMatrix(m)
    ensures var colour := PickAmong(m, hits, BoxCount).colour;
            ((forall q :: 0 <= q < BoxCount ==> !Candidate(m, hits, q)) ==> colour == Clear)
            && ((exists q :: 0 <= q < BoxCount && Candidate(m, hits, q)) ==>
                  exists q :: 0 <= q < BoxCount && Candidate(m, hits, q)
                              && colour == BoxVisited(m, q).albedo
                              && (forall r :: 0 <= r < BoxCount && Candidate(m, hits, r) ==> HitVisited(hits, q).tMin <= HitVisited(hits, r).tMin)
                              && (forall r :: 0 <= r < q && Candidate(m, hits, r) ==> HitVisited(hits, q).tMin < HitVisited(hits, r).tMin))
  {
    PickTracksWinner(m, hits, BoxCount);
    WinnerIsNearest(m, hits, BoxCount);
  }

  /** The body of the fragment's loops for one box. */
  method VisitBox(box: BoxState, h: Hit, found: bool, tMin: real, colour: Shade) returns (found': bool, tMin': real, colour': Shade)
    ensures Pick(found', tMin', colour') == Consider(Pick(found, tMin, colour), box, h)
  {
    found', tMin', colour' := found, tMin, colour;
    if box.isActive != 0 {
      if h.intersects && (!found || h.tMin < tMin) {
        colour' := box.albedo;
        tMin' := h.tMin;
        found' := true;
      }
    }
  }

  /** The fragment's innermost loop, over k for one (i, j): steps n, n + 1 and n + 2 of the search. */
  method SearchRow(m: Matrix, hits: (int, int, int) -> Hit, i: int, j: int, ghost n: int, p: Pick) returns (q: Pick)
    requires IsMatrix(m) && 0 <= i < X && 0 <= j < Y && n == 9 * i + 3 * j
    requires p == PickAmong(m, hits, n)
    ensures q == PickAmong(m, hits, n + 3)
  {
    var found, tMin, colour := p.found, p.tMin, p.colour;
    ghost var c := n;
    var k := 0;
    while k < Z
      invariant 0 <= k <= Z && c == n + k
      invariant Pick(found, tMin, colour) == PickAmong(m, hits, c)
    {
      VisitStep(m, hits, i, j, k, c);
      found, tMin, colour := VisitBox(m[i][j][k], hits(i, j, k), found, tMin, colour);
      c := c + 1;
      k := k + 1;
    }
    q := Pick(found, tMin, colour);
  }

  /** The fragment's loops over i and j: the colour is the search state's after all 27 visits. */
  method Search(m: Matrix, hits: (int, int, int) -> Hit) returns (colour: Shade)
    requires IsMatrix(m)
    ensures colour == PickAmong(m, hits, BoxCount).colour
  {
    var p := Pick(false, 0.0, Clear);
    ghost var n := 0;
    var i := 0;
    while i < X
      invariant 0 <= i <= X && n == 9 * i
      invariant p == PickAmong(m, hits, n)
    {
      var j := 0;
      while j < Y
        invariant 0 <= j <= Y && n == 9 * i + 3 * j
        invariant p == PickAmong(m, hits, n)
      {
        p := SearchRow(m, hits, i, j, n, p);
        n := n + 3;
        j := j + 1;
      }
      i := i + 1;
    }
    colour := p.colour;
  }

  /**
    The fragment's colour: the zero vector when the ray misses the stack's
    bounding box or meets no lit box, otherwise the albedo of the nearest lit
    box it meets, the first in loop order among equally near ones.
   */
  method FragmentColour(m: Matrix, boundsHit: bool, hits: (int, int, int) -> Hit) returns (colour: Shade)
    requires IsMatrix(m)
    ensures !boundsHit ==> colour == Clear
    ensures (forall q :: 0 <= q < BoxCount ==> !Candidate(m, hits, q)) ==> colour == Clear
    ensures boundsHit && (exists q :: 0 <= q < BoxCount && Candidate(m, hits, q)) ==>
              exists q :: 0 <= q < BoxCount && Candidate(m, hits, q)
                          && colour == BoxVisited(m, q).albedo
                          && (forall r :: 0 <= r < BoxCount && Candidate(m, hits, r) ==> HitVisited(hits, q).tMin <= HitVisited(hits, r).tMin)
                          && (forall r :: 0 <= r < q && Candidate(m, hits, r) ==> HitVisited(hits, q).tMin < HitVisited(hits, r).tMin)
  {
    colour := Clear;
    if boundsHit {
      colour := Search(m, hits);
      SearchFindsNearest(m, hits);
    }
  }
}

=== FILE: conservation.dfy ===
/**
  Mass conservation of one sub-step: without a source, the density leaving a
  cell is exactly the density its destination neighbour collects, so the
  grid's total density is unchanged.
 */
module Conservation {
  import opened Sums
  import opened Grid
  import opened Obstacles
  import opened Velocity
  import opened Flow

  /** Total density over the simulated grid. */
  function Total(b: Buffer): real
  {
    GridSum(GridSize, (x, y) => Read(b, x, y).z)
  }

  /** Changing one grid cell changes the total by the change of that cell's density. */
  lemma TotalAfterWrite(b: Buffer, r: Buffer, x0: int, y0: int)
    requires IsValidCoord(x0, y0)
    requires forall j :: 0 <= j < Capacity && j != Index(x0, y0) ==> r[j] == b[j]
    ensures Total(r) == Total(b) + (Read(r, x0, y0).z - Read(b, x0, y0).z)
  {
    forall x, y | OnGrid(GridSize, x, y) && (x, y) != (x0, y0)
      ensures Read(b, x, y).z == Read(r, x, y).z
    {
      IndexInjective(x, y, x0, y0);
      IndexBijection(x, y, 0);
    }
    GridUpdate(GridSize, (x, y) => Read(b, x, y).z, (x, y) => Read(r, x, y).z, x0, y0);
  }

  /** The out-flow of cell (x, y) if its velocity is (dx, dy), else nothing. */
  function Toward(b: Buffer, x: int, y: int, dx: int, dy: int): real
  {
    var c := Read(b, x, y);
    if c.vx == dx && c.vy == dy then OutFlow(b, x, y) else 0.0
  }

  /** A neighbour at offset (dx, dy) sends its out-flow exactly when its velocity is (-dx, -dy). */
  lemma FlowFromNeighbor(b: Buffer, x: int, y: int, dx: int, dy: int)
    requires (dx, dy) != (0, 0)
    ensures FlowFromCell(b, x, y, x + dx, y + dy) == (if IsValidCoord(x + dx, y + dy) then Toward(b, x + dx, y + dy, -dx, -dy) else 0.0)
  {
  }

  /** A well-formed cell's four directed out-flows add up to its out-flow. */
  lemma OutFlowSplits(b: Buffer, x: int, y: int)
    requires IsValidCoord(x, y) && PointsOnGrid(b, x, y)
    ensures Toward(b, x, y, 0, -1) + Toward(b, x, y, 0, 1) + Toward(b, x, y, -1, 0) + Toward(b, x, y, 1, 0) == OutFlow(b, x, y)
  {
    var c := Read(b, x, y);
    StillMeansZeroVelocity(c);
  }

  /** Without a source, the sub-step's density at a grid cell is its in-flow. */
  lemma NoSourceDensityIsInFlow(input: Buffer, output: Buffer, obs: ObstacleSet, src: SourceParams, draw: Draws, x: int, y: int)
    requires WellFormed(input) && src.intensity <= 0.0 && IsValidCoord(x, y)
    ensures Read(Step(input, output, obs, src, draw), x, y).z == InFlow(input, x, y)
  {
    InFlowNonNegative(input, x, y);
  }

  /** Cell (x, y) receives from neighbour (x + dx, y + dy) exactly what that neighbour sends back toward it. */
  lemma ReceivedPointwise(b: Buffer, dx: int, dy: int)
    requires Offset(dx, dy) in NeighborOffsets
    ensures forall x, y :: OnGrid(GridSize, x, y) ==>
      FlowFromCell(b, x, y, x + dx, y + dy) == (if IsValidCoord(x + dx, y + dy) then Toward(b, x + dx, y + dy, -dx, -dy) else 0.0)
  {
    forall x, y | OnGrid(GridSize, x, y)
      ensures FlowFromCell(b, x, y, x + dx, y + dy) == (if IsValidCoord(x + dx, y + dy) then Toward(b, x + dx, y + dy, -dx, -dy) else 0.0)
    {
      FlowFromNeighbor(b, x, y, dx, dy);
    }
  }

  /** Nothing a grid cell sends in direction (dx, dy) leaves the grid. */
  ghost predicate SendsOnGrid(b: Buffer, dx: int, dy: int)
  {
    forall x, y :: OnGrid(GridSize, x, y) && Toward(b, x, y, dx, dy) != 0.0 ==> IsValidCoord(x + dx, y + dy)
  }

  /** A well-formed cell only sends toward a grid cell. */
  lemma SentStaysOnGrid(b: Buffer, dx: int, dy: int)
    requires WellFormed(b)
    ensures SendsOnGrid(b, dx, dy)
  {
    forall x, y | OnGrid(GridSize, x, y) && Toward(b, x, y, dx, dy) != 0.0
      ensures IsValidCoord(x + dx, y + dy)
    {
      assert PointsOnGrid(b, x, y);
    }
  }

  /** Everything received from the cell above was sent downward. */
  lemma ReceivedFromAbove(b: Buffer)
    requires SendsOnGrid(b, 0, -1)
    ensures GridSum(GridSize, (x, y) => FlowFromCell(b, x, y, x, y + 1)) == GridSum(GridSize, (x, y) => Toward(b, x, y, 0, -1))
  {
    var recv := (x, y) => FlowFromCell(b, x, y, x, y + 1);
    var sent := (x, y) => Toward(b, x, y, 0, -1);
    var masked := (x, y) => if 1 <= y then sent(x, y) else 0.0;
    ReceivedPointwise(b, 0, 1);
    GridShiftY(GridSize, sent, recv, masked);
    GridPointwise(GridSize, masked, sent);
  }

  /** Everything received from the cell below was sent upward. */
  lemma ReceivedFromBelow(b: Buffer)
    requires SendsOnGrid(b, 0, 1)
    ensures GridSum(GridSize, (x, y) => FlowFromCell(b, x, y, x, y - 1)) == GridSum(GridSize, (x, y) => Toward(b, x, y, 0, 1))
  {
    var recv := (x, y) => FlowFromCell(b, x, y, x, y - 1);
    var sent := (x, y) => Toward(b, x, y, 0, 1);
    var lowered := (x, y) => sent(x, y - 1);
    var masked := (x, y) => if y + 1 < GridSize then sent(x, y) else 0.0;
    ReceivedPointwise(b, 0, -1);
    GridShiftY(GridSize, lowered, masked, recv);
    GridPointwise(GridSize, masked, sent);
  }

  /** Everything received from the cell to the right was sent leftward. */
  lemma ReceivedFromRight(b: Buffer)
    requires SendsOnGrid(b, -1, 0)
    ensures GridSum(GridSize, (x, y) => FlowFromCell(b, x, y, x + 1, y)) == GridSum(GridSize, (x, y) => Toward(b, x, y, -1, 0))
  {
    var recv := (x, y) => FlowFromCell(b, x, y, x + 1, y);
    var sent := (x, y) => Toward(b, x, y, -1, 0);
    var masked := (x, y) => if 1 <= x then sent(x, y) else 0.0;
    ReceivedPointwise(b, 1, 0);
    GridShiftX(GridSize, sent, recv, masked);
    GridPointwise(GridSize, masked, sent);
  }

  /** Everything received from the cell to the left was sent rightward. */
  lemma ReceivedFromLeft(b: Buffer)
    requires SendsOnGrid(b, 1, 0)
    ensures GridSum(GridSize, (x, y) => FlowFromCell(b, x, y, x - 1, y)) == GridSum(GridSize, (x, y) => Toward(b, x, y, 1, 0))
  {
    var recv := (x, y) => FlowFromCell(b, x, y, x - 1, y);
    var sent := (x, y) => Toward(b, x, y, 1, 0);
    var shifted := (x, y) => sent(x - 1, y);
    var masked := (x, y) => if x + 1 < GridSize then sent(x, y) else 0.0;
    ReceivedPointwise(b, -1, 0);
    GridShiftX(GridSize, shifted, masked, recv);
    GridPointwise(GridSize, masked, sent);
  }

  /** The grid's total in-flow splits into what cells keep and what they receive from each side. */
  lemma InFlowTotal(b: Buffer)
    ensures GridSum(GridSize, (x, y) => InFlow(b, x, y))
         == GridSum(GridSize, (x, y) => FlowFromCell(b, x, y, x, y))
          + GridSum(GridSize, (x, y) => FlowFromCell(b, x, y, x, y + 1))
          + GridSum(GridSize, (x, y) => FlowFromCell(b, x, y, x, y - 1))
          + GridSum(GridSize, (x, y) => FlowFromCell(b, x, y, x + 1, y))
          + GridSum(GridSize, (x, y) => FlowFromCell(b, x, y, x - 1, y))
  {
    var kept := (x, y) => FlowFromCell(b, x, y, x, y);
    var above := (x, y) => FlowFromCell(b, x, y, x, y + 1);
    var below := (x, y) => FlowFromCell(b, x, y, x, y - 1);
    var right := (x, y) => FlowFromCell(b, x, y, x + 1, y);
    var left := (x, y) => FlowFromCell(b, x, y, x - 1, y);
    var inflow := (x, y) => InFlow(b, x, y);
    forall x, y | OnGrid(GridSize, x, y)
      ensures inflow(x, y) == kept(x, y) + above(x, y) + below(x, y) + right(x, y) + left(x, y)
    {
    }
    GridAdd5(kept, above, below, right, left, inflow);
  }

  /** A grid sum of five summands is the sum of their grid sums. */
  lemma GridAdd5(f1: (int, int) -> real, f2: (int, int) -> real, f3: (int, int) -> real,
                 f4: (int, int) -> real, f5: (int, int) -> real, h: (int, int) -> real)
    requires forall x, y :: OnGrid(GridSize, x, y) ==> h(x, y) == f1(x, y) + f2(x, y) + f3(x, y) + f4(x, y) + f5(x, y)
    ensures GridSum(GridSize, h)
         == GridSum(GridSize, f1) + GridSum(GridSize, f2) + GridSum(GridSize, f3) + GridSum(GridSize, f4) + GridSum(GridSize, f5)
  {
    var p1 := (x, y) => f1(x, y) + f2(x, y);
    var p2 := (x, y) => p1(x, y) + f3(x, y);
    var p3 := (x, y) => p2(x, y) + f4(x, y);
    GridAdd(GridSize, f1, f2, p1);
    GridAdd(GridSize, p1, f3, p2);
    GridAdd(GridSize, p2, f4, p3);
    GridAdd(GridSize, p3, f5, h);
  }

  /** The grid's total density splits into what cells keep and what they send in each direction. */
  lemma DensityTotal(b: Buffer)
    requires WellFormed(b)
    ensures Total(b)
         == GridSum(GridSize, (x, y) => FlowFromCell(b, x, y, x, y))
          + GridSum(GridSize, (x, y) => Toward(b, x, y, 0, -1))
          + GridSum(GridSize, (x, y) => Toward(b, x, y, 0, 1))
          + GridSum(GridSize, (x, y) => Toward(b, x, y, -1, 0))
          + GridSum(GridSize, (x, y) => Toward(b, x, y, 1, 0))
  {
    var kept := (x, y) => FlowFromCell(b, x, y, x, y);
    var down := (x, y) => Toward(b, x, y, 0, -1);
    var up := (x, y) => Toward(b, x, y, 0, 1);
    var leftward := (x, y) => Toward(b, x, y, -1, 0);
    var rightward := (x, y) => Toward(b, x, y, 1, 0);
    var density := (x, y) => Read(b, x, y).z;
    forall x, y | OnGrid(GridSize, x, y)
      ensures density(x, y) == kept(x, y) + down(x, y) + up(x, y) + leftward(x, y) + rightward(x, y)
    {
      OutFlowSplits(b, x, y);
    }
    GridAdd5(kept, down, up, leftward, rightward, density);
  }

  /**
    Mass conservation: one sub-step with no source, from a grid whose densities
    are non-negative and whose velocities point on the grid, leaves the total
    density unchanged (and the grid well-formed again).
   */
  lemma StepConservesMass(input: Buffer, output: Buffer, obs: ObstacleSet, src: SourceParams, draw: Draws)
    requires WellFormed(input) && src.intensity <= 0.0
    ensures Total(Step(input, output, obs, src, draw)) == Total(input)
    ensures WellFormed(Step(input, output, obs, src, draw))
  {
    var r := Step(input, output, obs, src, draw);
    forall x, y | OnGrid(GridSize, x, y)
      ensures Read(r, x, y).z == InFlow(input, x, y)
    {
      NoSourceDensityIsInFlow(input, output, obs, src, draw, x, y);
    }
    GridPointwise(GridSize, (x, y) => Read(r, x, y).z, (x, y) => InFlow(input, x, y));
    InFlowIsConserved(input);
    StepPreservesWellFormed(input, output, obs, src, draw);
  }

  /**
    On a well-formed grid the in-flows add up to the total density: every
    cell's mass is either kept or received by exactly one neighbour.
   */
  lemma InFlowIsConserved(b: Buffer)
    requires WellFormed(b)
    ensures GridSum(GridSize, (x, y) => InFlow(b, x, y)) == Total(b)
  {
    InFlowTotal(b);
    SentStaysOnGrid(b, 0, -1);
    SentStaysOnGrid(b, 0, 1);
    SentStaysOnGrid(b, -1, 0);
    SentStaysOnGrid(b, 1, 0);
    ReceivedFromAbove(b);
    ReceivedFromBelow(b);
    ReceivedFromRight(b);
    ReceivedFromLeft(b);
    DensityTotal(b);
  }
}

=== FILE: driver.dfy ===
/**
  The frame driver: two grid buffers used in ping-pong fashion, an "even"
  pipeline set reading alpha and writing beta and an "odd" set doing the
  opposite, a `primary` set that flips before every sub-step, and a time
  accumulator that runs a batch of sub-steps every 50 ms of elapsed time.
 */
module Driver {
  import opened Wrappers
  import opened Grid
  import opened Obstacles
  import opened Flow
  import opened World
  import opened Conservation
  import Mover

  datatype Parity = Even | Odd

  function Flip(p: Parity): Parity
  {
    if p == Even then Odd else Even
  }

  /** Milliseconds of elapsed time per batch of sub-steps (`timestep`). */
  const Timestep: int := 50
  /** Sub-steps per batch (`stepsPerTick`). */
  const StepsPerTick: nat := 128
  /** Source centre and radius written before every sub-step, in grid fractions. */
  const SourceX: real := 0.5
  const SourceY: real := 0.9
  const SourceRadius: real := 0.05

  /** The source parameters of a sub-step, given the current `sourceIntensity`. */
  function TickSource(intensity: real): SourceParams
  {
    SourceParams(SourceX, SourceY, SourceRadius, intensity)
  }

  /**
    The simulation state: both buffers, the primary pipeline set, the time
    accumulator, and the two obstacle snapshots (`obstaclesBuffer`, which the
    sub-steps consult, and `prevObstaclesBuffer`).
   */
  datatype Sim = Sim(alpha: Buffer, beta: Buffer, primary: Parity, msSinceLastTick: int,
                     obstacles: ObstacleSet, prevObstacles: ObstacleSet)

  /** The buffer the pipelines of set p read. */
  function InputOf(s: Sim, p: Parity): Buffer
  {
    if p == Even then s.alpha else s.beta
  }

  /** The buffer the pipelines of set p write. */
  function OutputOf(s: Sim, p: Parity): Buffer
  {
    if p == Even then s.beta else s.alpha
  }

  /** Replace the buffer set p writes. */
  function WriteOutput(s: Sim, p: Parity, b: Buffer): (r: Sim)
    ensures OutputOf(r, p) == b && InputOf(r, p) == InputOf(s, p)
    ensures r.primary == s.primary && r.msSinceLastTick == s.msSinceLastTick
    ensures r.obstacles == s.obstacles && r.prevObstacles == s.prevObstacles
  {
    if p == Even then s.(beta := b) else s.(alpha := b)
  }

  /** The most recently written buffer: the primary set's output. */
  function Latest(s: Sim): Buffer
  {
    OutputOf(s, s.primary)
  }

  /** The buffer `render` samples: the primary set's input. */
  function Displayed(s: Sim): Buffer
  {
    InputOf(s, s.primary)
  }

  /**
    Start-up: both buffers zeroed, the even set primary, both obstacle
    snapshots the initial obstacles, and `init` of the even set filling its
    output buffer.
   */
  function Start(obs: ObstacleSet): (s: Sim)
    ensures s.primary == Even && s.msSinceLastTick == 0
    ensures s.obstacles == obs && s.prevObstacles == obs
    ensures Latest(s) == InitWorld(Zeroed(), obs)
    ensures WellFormed(Latest(s))
  {
    InitWorldIsWellFormed(Zeroed(), obs);
    var s0 := Sim(Zeroed(), Zeroed(), Even, 0, obs, obs);
    WriteOutput(s0, Even, InitWorld(OutputOf(s0, Even), obs))
  }

  /**
    The k-th sub-step of a run, as a function of the buffer it reads and the
    buffer it writes over.
   */
  type Stepper = (nat, Buffer, Buffer) -> Buffer

  /** The sub-steps `compute` performs: `mainCompute` on the current obstacles and source, with draws(k) for the k-th. */
  function SubStep(obs: ObstacleSet, intensity: real, draws: nat -> Draws): Stepper
  {
    (k: nat, input: Buffer, output: Buffer) => Step(input, output, obs, TickSource(intensity), draws(k))
  }

  /** Every sub-step keeps the invariant inv. */
  ghost predicate Preserves(step: Stepper, inv: Buffer -> bool)
  {
    forall k, input, output :: inv(input) ==> inv(step(k, input, output))
  }

  /** Every sub-step keeps the measure of a buffer satisfying inv. */
  ghost predicate Keeps(step: Stepper, inv: Buffer -> bool, measure: Buffer -> real)
  {
    forall k, input, output :: inv(input) ==> measure(step(k, input, output)) == measure(input)
  }

  lemma SubStepKeepsInvariant(obs: ObstacleSet, intensity: real, draws: nat -> Draws)
    ensures Preserves(SubStep(obs, intensity, draws), (b: Buffer) => WellFormed(b))
  {
    forall k: nat, input: Buffer, output: Buffer | WellFormed(input)
      ensures WellFormed(SubStep(obs, intensity, draws)(k, input, output))
    {
      StepPreservesWellFormed(input, output, obs, TickSource(intensity), draws(k));
    }
  }

  lemma SubStepConservesMass(obs: ObstacleSet, intensity: real, draws: nat -> Draws)
    requires intensity <= 0.0
    ensures Keeps(SubStep(obs, intensity, draws), (b: Buffer) => WellFormed(b), (b: Buffer) => Total(b))
  {
    forall k: nat, input: Buffer, output: Buffer | WellFormed(input)
      ensures Total(SubStep(obs, intensity, draws)(k, input, output)) == Total(input)
    {
      StepConservesMass(input, output, obs, TickSource(intensity), draws(k));
    }
  }

  /**
    `tick` as the k-th sub-step: flip the primary set, then run the new
    primary set's sub-step. It reads exactly the buffer the previous sub-step
    (or `init`) wrote, and its result becomes the latest buffer.
   */
  function Tick(s: Sim, step: Stepper, k: nat): (r: Sim)
    ensures r.primary == Flip(s.primary)
    ensures InputOf(r, r.primary) == Latest(s)
    ensures Latest(r) == step(k, Latest(s), InputOf(s, s.primary))
    ensures r.msSinceLastTick == s.msSinceLastTick && r.obstacles == s.obstacles && r.prevObstacles == s.prevObstacles
  {
    var p := Flip(s.primary);
    WriteOutput(s.(primary := p), p, step(k, InputOf(s, p), OutputOf(s, p)))
  }

  /** Sub-steps 0 .. n - 1 in a row. */
  function RunTicks(s: Sim, n: nat, step: Stepper): (r: Sim)
    ensures r.primary == if n % 2 == 0 then s.primary else Flip(s.primary)
    ensures r.msSinceLastTick == s.msSinceLastTick && r.obstacles == s.obstacles && r.prevObstacles == s.prevObstacles
    decreases n
  {
    if n == 0 then s else Tick(RunTicks(s, n - 1, step), step, n - 1)
  }

  /** After a run, the display shows the buffer the run's next-to-last sub-step wrote. */
  lemma RunTicksDisplayPrevious(s: Sim, n: nat, step: Stepper)
    requires 0 < n
    ensures Displayed(RunTicks(s, n, step)) == Latest(RunTicks(s, n - 1, step))
  {
  }

  /** Sub-steps that keep an invariant keep it over any run. */
  lemma {:induction false} RunTicksPreserve(s: Sim, n: nat, step: Stepper, inv: Buffer -> bool)
    requires inv(Latest(s)) && Preserves(step, inv)
    ensures inv(Latest(RunTicks(s, n, step)))
    decreases n
  {
    if n > 0 {
      RunTicksPreserve(s, n - 1, step, inv);
    }
  }

  /** Sub-steps that keep a measure under an invariant keep it over any run. */
  lemma {:induction false} RunTicksKeep(s: Sim, n: nat, step: Stepper, inv: Buffer -> bool, measure: Buffer -> real)
    requires inv(Latest(s)) && Preserves(step, inv) && Keeps(step, inv, measure)
    ensures measure(Latest(RunTicks(s, n, step))) == measure(Latest(s))
    decreases n
  {
    if n > 0 {
      RunTicksKeep(s, n - 1, step, inv, measure);
      RunTicksPreserve(s, n - 1, step, inv);
    }
  }

  /** What a frame leaves behind: the new state and, if a batch ran, the buffer rendered. */
  datatype FrameResult = FrameResult(sim: Sim, rendered: Option<Buffer>)

  /**
    One animation frame with dt milliseconds elapsed: dt is added to the
    accumulator; once it reaches Timestep, a batch of `steps` sub-steps runs
    (the component uses StepsPerTick), the display samples the primary set's
    input, and Timestep is taken off the accumulator, keeping any remainder.
   */
  function Frame(s: Sim, dt: int, steps: nat, step: Stepper): (r: FrameResult)
    ensures r.rendered.Some? <==> s.msSinceLastTick + dt >= Timestep
    ensures r.sim.msSinceLastTick == if s.msSinceLastTick + dt >= Timestep then s.msSinceLastTick + dt - Timestep else s.msSinceLastTick + dt
    ensures r.rendered.None? ==> r.sim == s.(msSinceLastTick := s.msSinceLastTick + dt)
    ensures r.rendered.Some? ==> r.rendered.value == Displayed(r.sim)
    ensures r.sim.obstacles == s.obstacles && r.sim.prevObstacles == s.prevObstacles
  {
    var acc := s.msSinceLastTick + dt;
    if acc >= Timestep then
      var t := RunTicks(s.(msSinceLastTick := acc), steps, step);
      FrameResult(t.(msSinceLastTick := acc - Timestep), Some(Displayed(t)))
    else
      FrameResult(s.(msSinceLastTick := acc), None)
  }

  /**
    An even batch, as StepsPerTick is, leaves the same pipeline set primary
    from frame to frame; an odd one would swap it on every rendered frame.
   */
  lemma FrameKeepsPrimary(s: Sim, dt: int, steps: nat, step: Stepper)
    ensures Frame(s, dt, steps, step).sim.primary
            == if s.msSinceLastTick + dt >= Timestep && steps % 2 == 1 then Flip(s.primary) else s.primary
    ensures steps == StepsPerTick ==> Frame(s, dt, steps, step).sim.primary == s.primary
  {
  }

  /**
    A batch renders the input of its last sub-step: the buffer written by the
    sub-step before it, one sub-step behind the latest.
   */
  lemma FrameRendersPenultimate(s: Sim, dt: int, steps: nat, step: Stepper)
    requires s.msSinceLastTick + dt >= Timestep && 0 < steps
    ensures Frame(s, dt, steps, step).rendered
            == Some(Latest(RunTicks(s.(msSinceLastTick := s.msSinceLastTick + dt), steps - 1, step)))
  {
    RunTicksDisplayPrevious(s.(msSinceLastTick := s.msSinceLastTick + dt), steps, step);
  }

  /** With elapsed times of at most Timestep per frame, the accumulator stays in [0, Timestep). */
  lemma FrameKeepsAccumulatorBounded(s: Sim, dt: int, steps: nat, step: Stepper)
    requires 0 <= s.msSinceLastTick < Timestep && 0 <= dt <= Timestep
    ensures 0 <= Frame(s, dt, steps, step).sim.msSinceLastTick < Timestep
  {
  }

  /** A frame of sub-steps that keep a measure under an invariant keeps both. */
  lemma FrameKeeps(s: Sim, dt: int, steps: nat, step: Stepper, inv: Buffer -> bool, measure: Buffer -> real)
    requires inv(Latest(s)) && Preserves(step, inv) && Keeps(step, inv, measure)
    ensures var r := Frame(s, dt, steps, step).sim;
            measure(Latest(r)) == measure(Latest(s)) && inv(Latest(r))
  {
    var s1 := s.(msSinceLastTick := s.msSinceLastTick + dt);
    assert Latest(s1) == Latest(s);
    if s1.msSinceLastTick >= Timestep {
      RunTicksKeep(s1, steps, step, inv, measure);
      RunTicksPreserve(s1, steps, step, inv);
    }
  }

  /**
    With the source off, a frame of `mainCompute` sub-steps keeps the total
    density of the latest buffer and its invariant.
   */
  lemma FrameConservesMass(s: Sim, dt: int, steps: nat, intensity: real, draws: nat -> Draws)
    requires WellFormed(Latest(s)) && intensity <= 0.0
    ensures var r := Frame(s, dt, steps, SubStep(s.obstacles, intensity, draws)).sim;
            Total(Latest(r)) == Total(Latest(s)) && WellFormed(Latest(r))
  {
    SubStepKeepsInvariant(s.obstacles, intensity, draws);
    SubStepConservesMass(s.obstacles, intensity, draws);
    FrameKeeps(s, dt, steps, SubStep(s.obstacles, intensity, draws), (b: Buffer) => WellFormed(b), (b: Buffer) => Total(b));
  }

  /**
    `applyMovedObstacles`: the next obstacle list is written, the mover runs in
    place on the primary set's output buffer with the previous list as `prev`,
    and the previous list becomes the next one. The input buffer is untouched.
   */
  method ApplyMovedObstacles(s: Sim, next: ObstacleSet, draws: int -> Draws) returns (r: Sim)
    ensures r.obstacles == next && r.prevObstacles == next
    ensures r.primary == s.primary && r.msSinceLastTick == s.msSinceLastTick
    ensures Displayed(r) == Displayed(s)
    ensures Mover.NoneEnabled(s.prevObstacles) ==> Latest(r) == Latest(s)
    ensures Mover.NoneMoved(s.prevObstacles, next) ==> forall i :: 0 <= i < Capacity ==> Latest(r)[i].z == Latest(s)[i].z
  {
    var moved := Mover.MoveObstacles(Latest(s), s.prevObstacles, next, draws);
    r := WriteOutput(s, s.primary, moved).(obstacles := next, prevObstacles := next);
  }
}

=== FILE: flow.dfy ===
/**
  The flow resolver and source injector: one simulation sub-step
  (`mainCompute`) computes every cell of the output buffer from the frozen
  input buffer. A cell's new velocity comes from the velocity rule; its new
  density is what stays behind in it plus what its neighbours send into it,
  raised to the source's minimum inflow near the source.
 */
module Flow {
  import opened Grid
  import opened Obstacles
  import opened Velocity

  /** The cell's stored velocity is shorter than 0.5 (`length(src.xy) < 0.5`), compared squared. */
  predicate IsStill(c: Cell)
  {
    ((c.vx * c.vx + c.vy * c.vy) as real) < 0.25
  }

  lemma StillMeansZeroVelocity(c: Cell)
    ensures IsStill(c) <==> c.vx == 0 && c.vy == 0
  {
    if !(c.vx == 0 && c.vy == 0) {
      assert c.vx * c.vx >= 1 || c.vy * c.vy >= 1;
    }
  }

  /** The cell a source cell's velocity points at (`dest_pos`); exact because velocities are whole cells. */
  function DestX(b: Buffer, x: int, y: int): int
  {
    x + Read(b, x, y).vx
  }

  function DestY(b: Buffer, x: int, y: int): int
  {
    y + Read(b, x, y).vy
  }

  /**
    `out_flow` of source cell (x, y): 0.3 + 0.1 * (density difference to the
    destination), at least 0.01 and at most the source's density, or 0 when the
    cell is still.
   */
  function OutFlow(b: Buffer, x: int, y: int): (r: real)
    ensures var src := Read(b, x, y);
            var want := 0.3 + (src.z - Read(b, DestX(b, x, y), DestY(b, x, y)).z) * 0.1;
            && (IsStill(src) ==> r == 0.0)
            && (!IsStill(src) ==>
                  (r <= src.z && r <= (if want < 0.01 then 0.01 else want)
                   && (r == src.z || r == (if want < 0.01 then 0.01 else want))))
            && (0.0 <= src.z ==> 0.0 <= r <= src.z)
  {
    var src := Read(b, x, y);
    var dest := Read(b, DestX(b, x, y), DestY(b, x, y));
    var diff := src.z - dest.z;
    var raised := if 0.01 < 0.3 + diff * 0.1 then 0.3 + diff * 0.1 else 0.01;
    var out := if raised < src.z then raised else src.z;
    if IsStill(src) then 0.0 else out
  }

  /**
    `flowFromCell(my_x, my_y, x, y)`: the density cell (x, y) contributes to
    cell (my_x, my_y): what it keeps if it is that cell, its out-flow if its
    velocity points there, nothing otherwise or when (x, y) is off the grid.
   */
  function FlowFromCell(b: Buffer, mx: int, my: int, x: int, y: int): (r: real)
    ensures !IsValidCoord(x, y) ==> r == 0.0
    ensures IsValidCoord(x, y) && (mx, my) == (x, y) ==> r + OutFlow(b, x, y) == Read(b, x, y).z
    ensures IsValidCoord(x, y) && (mx, my) != (x, y) && (DestX(b, x, y), DestY(b, x, y)) == (mx, my) ==> r == OutFlow(b, x, y)
    ensures (mx, my) != (x, y) && (DestX(b, x, y), DestY(b, x, y)) != (mx, my) ==> r == 0.0
    ensures 0.0 <= Read(b, x, y).z ==> 0.0 <= r <= Read(b, x, y).z
  {
    if !IsValidCoord(x, y) then 0.0
    else if mx == x && my == y then Read(b, x, y).z - OutFlow(b, x, y)
    else if DestX(b, x, y) == mx && DestY(b, x, y) == my then OutFlow(b, x, y)
    else 0.0
  }

  /** The source uniform: centre as a fraction of the grid, radius as a fraction of the grid, intensity. */
  datatype SourceParams = SourceParams(cx: real, cy: real, radius: real, intensity: real)

  /**
    `getMinimumInFlow`: the source intensity on cells closer to the source
    centre than max(1, radius * gridSize), 0 elsewhere. Distances are compared
    squared, which is equivalent because the radius is at least 1.
   */
  function MinimumInFlow(src: SourceParams, x: int, y: int): (r: real)
    ensures r == src.intensity || r == 0.0
    ensures var g := GridSize as real;
            var rad := if 1.0 < src.radius * g then src.radius * g else 1.0;
            var dx := x as real - src.cx * g;
            var dy := y as real - src.cy * g;
            (dx * dx + dy * dy < rad * rad ==> r == src.intensity) && (rad * rad <= dx * dx + dy * dy ==> r == 0.0)
  {
    var g := GridSize as real;
    var rad := if 1.0 < src.radius * g then src.radius * g else 1.0;
    var dx := x as real - src.cx * g;
    var dy := y as real - src.cy * g;
    if dx * dx + dy * dy < rad * rad then src.intensity else 0.0
  }

  /**
    Because the radius is never below one cell, the source always feeds at
    least one cell: the cell nearest its centre, at most half a cell away
    along each axis, gets the intensity wherever the centre lies.
   */
  lemma SourceCentreGetsIntensity(src: SourceParams)
    ensures var g := GridSize as real;
            MinimumInFlow(src, (src.cx * g + 0.5).Floor, (src.cy * g + 0.5).Floor) == src.intensity
  {
    var g := GridSize as real;
    var dx := (src.cx * g + 0.5).Floor as real - src.cx * g;
    var dy := (src.cy * g + 0.5).Floor as real - src.cy * g;
    assert dx * dx <= 0.25 by {
      if dx >= 0.0 { assert dx * dx <= 0.5 * dx; } else { assert dx * dx <= -0.5 * dx; }
    }
    assert dy * dy <= 0.25 by {
      if dy >= 0.0 { assert dy * dy <= 0.5 * dy; } else { assert dy * dy <= -0.5 * dy; }
    }
    var rad := if 1.0 < src.radius * g then src.radius * g else 1.0;
    assert rad * rad >= 1.0 by { assert rad * rad >= rad; }
  }

  /** The summed in-flow of cell (x, y): itself, then y + 1, y - 1, x + 1, x - 1, as `mainCompute` adds them. */
  function InFlow(b: Buffer, x: int, y: int): real
  {
    FlowFromCell(b, x, y, x, y)
    + FlowFromCell(b, x, y, x, y + 1)
    + FlowFromCell(b, x, y, x, y - 1)
    + FlowFromCell(b, x, y, x + 1, y)
    + FlowFromCell(b, x, y, x - 1, y)
  }

  /**
    The output cell `mainCompute` writes for (x, y) given random draw u: a
    cheapest direction, the in-flow raised to the source minimum, and the unused
    slot copied from the input.
   */
  function ComputeCell(b: Buffer, obs: ObstacleSet, src: SourceParams, x: int, y: int, u: real): (c: Cell)
    ensures Offset(c.vx, c.vy) in Options
    ensures (c.vx, c.vy) == (0, 0) || IsValidFlowOut(obs, x + c.vx, y + c.vy)
    ensures Offset(c.vx, c.vy) in Ties(b, obs, x, y)
    ensures c.w == Read(b, x, y).w
    ensures c.z >= MinimumInFlow(src, x, y)
    ensures c.z >= InFlow(b, x, y)
    ensures c.z == MinimumInFlow(src, x, y) || c.z == InFlow(b, x, y)
  {
    var v := ComputeVelocity(b, obs, x, y, u);
    var inflow := InFlow(b, x, y);
    var least := MinimumInFlow(src, x, y);
    Cell(v.dx, v.dy, if least < inflow then inflow else least, Read(b, x, y).w)
  }

  /** The random draw for each cell index in one sub-step. */
  type Draws = int -> real

  /**
    One sub-step: every grid cell of the output buffer is recomputed from the
    input buffer; the output buffer's cells outside the grid keep their contents.
   */
  function Step(input: Buffer, output: Buffer, obs: ObstacleSet, src: SourceParams, draw: Draws): (r: Buffer)
    ensures forall x, y :: IsValidCoord(x, y) ==> Read(r, x, y) == ComputeCell(input, obs, src, x, y, draw(Index(x, y)))
    ensures forall i :: CellCount <= i < Capacity ==> r[i] == output[i]
  {
    var cells := seq(Capacity, i requires 0 <= i < Capacity =>
                     if i < CellCount then ComputeCell(input, obs, src, ColumnOf(i), RowOf(i), draw(i)) else output[i]);
    assert |cells| == Capacity;
    var r: Buffer := cells;
    forall x, y | IsValidCoord(x, y)
      ensures Read(r, x, y) == ComputeCell(input, obs, src, x, y, draw(Index(x, y)))
    {
      IndexBijection(x, y, 0);
    }
    r
  }

  // ------------------------------------------------------------------ the invariant a sub-step keeps

  /**
    The stored velocity of grid cell (x, y) is "stay" or one of the four
    neighbour offsets, and a non-zero one points at a grid cell.
   */
  predicate PointsOnGrid(b: Buffer, x: int, y: int)
  {
    var c := Read(b, x, y);
    Offset(c.vx, c.vy) in Options && ((c.vx, c.vy) == (0, 0) || IsValidCoord(x + c.vx, y + c.vy))
  }

  /** Every grid cell has a non-negative density and a velocity that points on the grid. */
  ghost predicate WellFormed(b: Buffer)
  {
    forall x, y :: IsValidCoord(x, y) ==> 0.0 <= Read(b, x, y).z && PointsOnGrid(b, x, y)
  }

  /**
    A sub-step keeps the invariant: densities stay non-negative, whatever the
    source, and the new velocities point at cells mass may flow into.
   */
  lemma StepPreservesWellFormed(input: Buffer, output: Buffer, obs: ObstacleSet, src: SourceParams, draw: Draws)
    requires WellFormed(input)
    ensures WellFormed(Step(input, output, obs, src, draw))
  {
    var r := Step(input, output, obs, src, draw);
    forall x, y | IsValidCoord(x, y)
      ensures 0.0 <= Read(r, x, y).z && PointsOnGrid(r, x, y)
    {
      InFlowNonNegative(input, x, y);
      StepCellKeepsInvariant(input, output, obs, src, draw, x, y);
    }
  }

  /** The invariant at one grid cell of the sub-step's output. */
  lemma StepCellKeepsInvariant(input: Buffer, output: Buffer, obs: ObstacleSet, src: SourceParams, draw: Draws, x: int, y: int)
    requires 0.0 <= InFlow(input, x, y) && IsValidCoord(x, y)
    ensures 0.0 <= Read(Step(input, output, obs, src, draw), x, y).z && PointsOnGrid(Step(input, output, obs, src, draw), x, y)
  {
    CellKeepsInvariant(input, obs, src, x, y, draw(Index(x, y)));
  }

  /** A cell with non-negative in-flow is recomputed with a non-negative density and a velocity that points on the grid. */
  lemma CellKeepsInvariant(input: Buffer, obs: ObstacleSet, src: SourceParams, x: int, y: int, u: real)
    requires 0.0 <= InFlow(input, x, y)
    ensures var c := ComputeCell(input, obs, src, x, y, u);
            0.0 <= c.z && Offset(c.vx, c.vy) in Options && ((c.vx, c.vy) == (0, 0) || IsValidCoord(x + c.vx, y + c.vy))
  {
  }

  /** The in-flow of a cell is non-negative when every density is. */
  lemma InFlowNonNegative(b: Buffer, x: int, y: int)
    requires WellFormed(b)
    ensures 0.0 <= InFlow(b, x, y)
  {
    NonNegativeOffGridFlow(b, x, y + 1);
    NonNegativeOffGridFlow(b, x, y - 1);
    NonNegativeOffGridFlow(b, x + 1, y);
    NonNegativeOffGridFlow(b, x - 1, y);
    NonNegativeOffGridFlow(b, x, y);
  }

  lemma NonNegativeOffGridFlow(b: Buffer, x: int, y: int)
    requires WellFormed(b)
    ensures IsValidCoord(x, y) ==> 0.0 <= Read(b, x, y).z
  {
  }

  /** Each cell's output density reaches the source minimum; with intensity I > 0, cells in the source region end at or above I. */
  lemma SourceClamp(input: Buffer, output: Buffer, obs: ObstacleSet, src: SourceParams, draw: Draws, x: int, y: int)
    requires IsValidCoord(x, y)
    ensures Read(Step(input, output, obs, src, draw), x, y).z >= MinimumInFlow(src, x, y)
    ensures Read(Step(input, output, obs, src, draw), x, y).w == Read(input, x, y).w
    ensures MinimumInFlow(src, x, y) == src.intensity ==> Read(Step(input, output, obs, src, draw), x, y).z >= src.intensity
  {
  }
}

=== FILE: grid.dfy ===
/**
  The grid store of the water simulation: a fixed-capacity buffer of cells
  (velocity, density, unused slot) addressed by row-major coordinates.

  The buffer is allocated for the largest supported grid (64 x 64 cells) while
  the simulation uses a 16 x 16 corner of its index range. Coordinates are
  turned into indices without any check, exactly like `coordsToIndex`, so an
  off-grid coordinate such as (16, y) lands on the first cell of the next row.
  Accesses that fall outside the whole buffer are out-of-bounds in the shader
  language; this model reads such cells as the zero cell and drops such writes.
 */
module Grid {

  /** Side of the simulated square grid (`gridSize`). */
  const GridSize: int := 16
  /** Largest side a buffer is allocated for (`MAX_GRID_SIZE`). */
  const MaxGridSize: int := 64
  /** Number of cells in one buffer. */
  const Capacity: int := 4096 // MaxGridSize * MaxGridSize
  /** Number of cells the simulation actually covers. */
  const CellCount: int := 256 // GridSize * GridSize

  /**
    One grid cell, the shader's `vec4f`: velocity (vx, vy), density z and an
    unused slot w. Velocities the simulation writes are always 0 or +-1 per
    component, so they are integers here.
   */
  datatype Cell = Cell(vx: int, vy: int, z: real, w: real)

  const Empty: Cell := Cell(0, 0, 0.0, 0.0)

  /** A whole grid buffer (`gridAlphaBuffer` or `gridBetaBuffer`). */
  type Buffer = b: seq<Cell> | |b| == Capacity witness seq(Capacity, _ => Empty)

  /** A buffer as freshly allocated: every cell zero. */
  function Zeroed(): (b: Buffer)
    ensures forall i :: 0 <= i < Capacity ==> b[i] == Empty
  {
    seq(Capacity, _ => Empty)
  }

  /** `isValidCoord`: the coordinate lies on the simulated grid. */
  predicate IsValidCoord(x: int, y: int)
  {
    0 <= x < GridSize && 0 <= y < GridSize
  }

  /** `coordsToIndex`: row-major index, with no range check. */
  function Index(x: int, y: int): int
  {
    x + y * GridSize
  }

  /** The column of a grid index. */
  function ColumnOf(i: int): int
    requires 0 <= i
  {
    i % GridSize
  }

  /** The row of a grid index. */
  function RowOf(i: int): int
    requires 0 <= i
  {
    i / GridSize
  }

  /**
    `coordsToIndex` is a bijection between the grid's coordinates and the
    indices 0 .. CellCount - 1, with ColumnOf/RowOf as its inverse.
   */
  lemma IndexBijection(x: int, y: int, i: int)
    ensures IsValidCoord(x, y) ==> 0 <= Index(x, y) < CellCount
    ensures IsValidCoord(x, y) ==> ColumnOf(Index(x, y)) == x && RowOf(Index(x, y)) == y
    ensures 0 <= i < CellCount ==> IsValidCoord(ColumnOf(i), RowOf(i)) && Index(ColumnOf(i), RowOf(i)) == i
  {
  }

  /** Distinct grid coordinates address distinct cells. */
  lemma IndexInjective(x1: int, y1: int, x2: int, y2: int)
    requires IsValidCoord(x1, y1) && IsValidCoord(x2, y2)
    requires (x1, y1) != (x2, y2)
    ensures Index(x1, y1) != Index(x2, y2)
  {
    IndexBijection(x1, y1, 0);
    IndexBijection(x2, y2, 0);
  }

  predicate InBuffer(i: int)
  {
    0 <= i < Capacity
  }

  /** `getCell`: the cell at (x, y); the zero cell when the index leaves the buffer. */
  function Read(b: Buffer, x: int, y: int): (c: Cell)
    ensures InBuffer(Index(x, y)) ==> c == b[Index(x, y)]
    ensures !InBuffer(Index(x, y)) ==> c == Empty
  {
    var i := Index(x, y);
    if InBuffer(i) then b[i] else Empty
  }

  /**
    `getCell` does no range check, so coordinates just off the grid read a
    real cell of the neighbouring row: column GridSize is column 0 of the next
    row and column -1 is the last column of the previous row.
   */
  lemma OffGridReadsAlias(b: Buffer, x: int, y: int)
    ensures Read(b, x + GridSize, y) == Read(b, x, y + 1)
    ensures Read(b, x - GridSize, y) == Read(b, x, y - 1)
    ensures 0 <= y < GridSize - 1 ==> Read(b, GridSize, y) == b[Index(0, y + 1)]
    ensures 0 < y < GridSize ==> Read(b, -1, y) == b[Index(GridSize - 1, y - 1)]
  {
  }

  /** Store `c` at index i; a store outside the buffer has no effect. */
  function Store(b: Buffer, i: int, c: Cell): (r: Buffer)
    ensures InBuffer(i) ==> r[i] == c
    ensures forall j :: 0 <= j < Capacity && j != i ==> r[j] == b[j]
    ensures !InBuffer(i) ==> r == b
  {
    if InBuffer(i) then b[i := c] else b
  }

  /** `setCell`. */
  function SetCell(b: Buffer, x: int, y: int, c: Cell): (r: Buffer)
    ensures InBuffer(Index(x, y)) ==> Read(r, x, y) == c
    ensures forall j :: 0 <= j < Capacity && j != Index(x, y) ==> r[j] == b[j]
  {
    Store(b, Index(x, y), c)
  }

  /** `setVelocity`: overwrite the velocity, keep density and the unused slot. */
  function SetVelocity(b: Buffer, x: int, y: int, vx: int, vy: int): (r: Buffer)
    ensures InBuffer(Index(x, y)) ==> Read(r, x, y) == Read(b, x, y).(vx := vx, vy := vy)
    ensures forall j :: 0 <= j < Capacity && j != Index(x, y) ==> r[j] == b[j]
    ensures forall j :: 0 <= j < Capacity ==> r[j].z == b[j].z && r[j].w == b[j].w
  {
    Store(b, Index(x, y), Read(b, x, y).(vx := vx, vy := vy))
  }

  /**
    `addDensity` when input and output are the same buffer (the obstacle
    mover's binding): the density there grows by `d`.
   */
  function AddDensity(b: Buffer, x: int, y: int, d: real): (r: Buffer)
    ensures InBuffer(Index(x, y)) ==> Read(r, x, y).z == Read(b, x, y).z + d
    ensures forall j :: 0 <= j < Capacity ==> r[j].vx == b[j].vx && r[j].vy == b[j].vy && r[j].w == b[j].w
    ensures forall j :: 0 <= j < Capacity && j != Index(x, y) ==> r[j] == b[j]
  {
    var c := Read(b, x, y);
    Store(b, Index(x, y), c.(z := c.z + d))
  }
}

=== FILE: mover.dfy ===
/**
  The obstacle mover (`mainMoveObstacles`): when an obstacle moves, the water
  in the cells it now covers is pushed to the cell just beyond its new edge,
  and the velocities beside its new position are recomputed. The pass works in
  place on one buffer (its input and output are the same buffer), so each
  write is visible to the reads after it.

  A sweep visits whole lines of cells. With `horizontal` a line is a row
  `line` and positions along it are x coordinates; otherwise a line is a
  column and positions are y coordinates.
 */
module Mover {
  import opened Grid
  import opened Obstacles
  import opened Velocity
  import opened Flow
  import opened Conservation

  // ------------------------------------------------------------------ lines of cells

  /** x coordinate of position t on a line. */
  function PX(horizontal: bool, line: int, t: int): int
  {
    if horizontal then t else line
  }

  /** y coordinate of position t on a line. */
  function PY(horizontal: bool, line: int, t: int): int
  {
    if horizontal then line else t
  }

  /** Buffer index of position t on a line. */
  function IndexOn(horizontal: bool, line: int, t: int): int
  {
    Index(PX(horizontal, line, t), PY(horizontal, line, t))
  }

  /** The density at position t on a line, as `getCell` reads it. */
  function DensityOn(b: Buffer, horizontal: bool, line: int, t: int): real
  {
    Read(b, PX(horizontal, line, t), PY(horizontal, line, t)).z
  }

  /** Sum of the densities at positions lo .. hi - 1 of a line. */
  function RunSum(b: Buffer, horizontal: bool, line: int, lo: int, hi: int): real
    decreases hi - lo
  {
    if hi <= lo then 0.0 else RunSum(b, horizontal, line, lo, hi - 1) + DensityOn(b, horizontal, line, hi - 1)
  }

  /** Index i is the cell of some position lo .. hi - 1 of the line. */
  ghost predicate OnRun(horizontal: bool, line: int, lo: int, hi: int, i: int)
  {
    exists t :: lo <= t < hi && i == IndexOn(horizontal, line, t)
  }

  /** The line through (x, y) and the position of (x, y) on it. */
  function LineOf(horizontal: bool, x: int, y: int): int
  {
    if horizontal then y else x
  }

  function PosOf(horizontal: bool, x: int, y: int): int
  {
    if horizontal then x else y
  }

  /**
    Cell (x, y) is touched by a sweep of lines l0 .. l1 that clears positions
    lo .. hi - 1 and drops their water at position dest.
   */
  predicate Swept(horizontal: bool, l0: int, l1: int, lo: int, hi: int, dest: int, x: int, y: int)
  {
    l0 <= LineOf(horizontal, x, y) <= l1
    && (lo <= PosOf(horizontal, x, y) < hi || PosOf(horizontal, x, y) == dest)
  }

  /** Every cell a sweep touches lies on the grid, so no write wraps or is dropped. */
  predicate SweepOnGrid(l0: int, l1: int, lo: int, hi: int, dest: int)
  {
    l1 < l0
    || (0 <= l0 && l1 < GridSize && 0 <= dest < GridSize && (hi <= lo || (0 <= lo && hi <= GridSize)))
  }

  // ------------------------------------------------------------------ clearing one line

  /** Two buffers agree on every cell's velocity and unused slot. */
  ghost predicate SameVelocities(b: Buffer, r: Buffer)
  {
    forall i :: 0 <= i < Capacity ==> r[i].vx == b[i].vx && r[i].vy == b[i].vy && r[i].w == b[i].w
  }


  lemma OnGridPosition(horizontal: bool, line: int, t: int)
    requires 0 <= line < GridSize && 0 <= t < GridSize
    ensures IsValidCoord(PX(horizontal, line, t), PY(horizontal, line, t))
    ensures 0 <= IndexOn(horizontal, line, t) < CellCount
  {
    IndexBijection(PX(horizontal, line, t), PY(horizontal, line, t), 0);
  }

  /** On the grid, a cell that a one-line sweep does not touch has an index the sweep does not write. */
  lemma UntouchedIndex(horizontal: bool, line: int, lo: int, hi: int, dest: int, x: int, y: int)
    requires SweepOnGrid(line, line, lo, hi, dest)
    requires IsValidCoord(x, y) && !Swept(horizontal, line, line, lo, hi, dest, x, y)
    ensures !OnRun(horizontal, line, lo, hi, Index(x, y)) && Index(x, y) != IndexOn(horizontal, line, dest)
  {
    forall t | lo <= t < hi
      ensures Index(x, y) != IndexOn(horizontal, line, t)
    {
      IndexInjective(x, y, PX(horizontal, line, t), PY(horizontal, line, t));
    }
    IndexInjective(x, y, PX(horizontal, line, dest), PY(horizontal, line, dest));
  }

  /** The inner loop's invariant after clearing positions lo .. t - 1 of the line into `moved`. */
  ghost predicate Cleared(b: Buffer, r: Buffer, horizontal: bool, line: int, lo: int, t: int, moved: real)
  {
    && moved == RunSum(b, horizontal, line, lo, t)
    && (forall s :: lo <= s < t && InBuffer(IndexOn(horizontal, line, s)) ==> r[IndexOn(horizontal, line, s)].z == 0.0)
    && (forall i :: 0 <= i < Capacity && !OnRun(horizontal, line, lo, t, i) ==> r[i] == b[i])
    && SameVelocities(b, r)
  }

  /** Emptying the cell at position t, as the loop body does. */
  function ClearCell(r: Buffer, horizontal: bool, line: int, t: int): (r': Buffer)
    ensures InBuffer(IndexOn(horizontal, line, t)) ==> r'[IndexOn(horizontal, line, t)].z == 0.0
    ensures forall i :: 0 <= i < Capacity && i != IndexOn(horizontal, line, t) ==> r'[i] == r[i]
    ensures forall i :: 0 <= i < Capacity ==> r'[i].vx == r[i].vx && r'[i].vy == r[i].vy && r'[i].w == r[i].w
  {
    var x, y := PX(horizontal, line, t), PY(horizontal, line, t);
    SetCell(r, x, y, Read(r, x, y).(z := 0.0))
  }

  /** One iteration of the inner loop keeps its invariant. */
  lemma ClearStep(b: Buffer, r: Buffer, horizontal: bool, line: int, lo: int, t: int, moved: real)
    requires lo <= t
    requires Cleared(b, r, horizontal, line, lo, t, moved)
    ensures DensityOn(r, horizontal, line, t) == DensityOn(b, horizontal, line, t)
    ensures Cleared(b, ClearCell(r, horizontal, line, t), horizontal, line, lo, t + 1, moved + DensityOn(r, horizontal, line, t))
  {
    assert !OnRun(horizontal, line, lo, t, IndexOn(horizontal, line, t));
  }

  /**
    What clearing one line does to densities, in grid coordinates: the run is
    empty, the destination gained `moved`, and every other grid cell and every
    cell beyond the grid keeps its density.
   */
  ghost predicate LineSwept(b: Buffer, r: Buffer, horizontal: bool, line: int, lo: int, hi: int, dest: int, moved: real)
  {
    && (forall t :: lo <= t < hi ==> DensityOn(r, horizontal, line, t) == 0.0)
    && DensityOn(r, horizontal, line, dest) == DensityOn(b, horizontal, line, dest) + moved
    && (forall x, y :: IsValidCoord(x, y) && !Swept(horizontal, line, line, lo, hi, dest, x, y) ==> Read(r, x, y).z == Read(b, x, y).z)
    && (forall i :: CellCount <= i < Capacity ==> r[i].z == b[i].z)
  }

  lemma LineSweptOnGrid(b: Buffer, r: Buffer, horizontal: bool, line: int, lo: int, hi: int, dest: int, moved: real)
    requires SweepOnGrid(line, line, lo, hi, dest)
    requires forall t :: lo <= t < hi && InBuffer(IndexOn(horizontal, line, t)) ==> r[IndexOn(horizontal, line, t)].z == 0.0
    requires InBuffer(IndexOn(horizontal, line, dest)) ==>
               r[IndexOn(horizontal, line, dest)].z == b[IndexOn(horizontal, line, dest)].z + moved
    requires forall i :: 0 <= i < Capacity && !OnRun(horizontal, line, lo, hi, i) && i != IndexOn(horizontal, line, dest) ==> r[i] == b[i]
    ensures LineSwept(b, r, horizontal, line, lo, hi, dest, moved)
  {
    forall t | lo <= t < hi
      ensures DensityOn(r, horizontal, line, t) == 0.0
    {
      OnGridPosition(horizontal, line, t);
    }
    OnGridPosition(horizontal, line, dest);
    forall x, y | IsValidCoord(x, y) && !Swept(horizontal, line, line, lo, hi, dest, x, y)
      ensures Read(r, x, y).z == Read(b, x, y).z
    {
      UntouchedIndex(horizontal, line, lo, hi, dest, x, y);
      IndexBijection(x, y, 0);
    }
    forall i | CellCount <= i < Capacity
      ensures r[i].z == b[i].z
    {
      forall t | lo <= t < hi
        ensures i != IndexOn(horizontal, line, t)
      {
        OnGridPosition(horizontal, line, t);
      }
    }
  }

  /** `addDensity` at position dest of a line. */
  function DropAt(r: Buffer, horizontal: bool, line: int, dest: int, moved: real): Buffer
  {
    AddDensity(r, PX(horizontal, line, dest), PY(horizontal, line, dest), moved)
  }

  /** After the inner loop, dropping the collected density at the destination establishes the pass's contract. */
  lemma DropStep(b: Buffer, r: Buffer, horizontal: bool, line: int, lo: int, hi: int, dest: int, t: int, moved: real)
    requires dest < lo || hi <= dest
    requires t == if hi < lo then lo else hi
    requires Cleared(b, r, horizontal, line, lo, t, moved)
    ensures var r' := DropAt(r, horizontal, line, dest, moved);
            && moved == RunSum(b, horizontal, line, lo, hi)
            && SameVelocities(b, r')
            && (SweepOnGrid(line, line, lo, hi, dest) ==> LineSwept(b, r', horizontal, line, lo, hi, dest, moved))
  {
    var dx, dy := PX(horizontal, line, dest), PY(horizontal, line, dest);
    var r' := DropAt(r, horizontal, line, dest, moved);
    assert !OnRun(horizontal, line, lo, hi, IndexOn(horizontal, line, dest));
    assert forall i :: 0 <= i < Capacity && !OnRun(horizontal, line, lo, hi, i) ==> r[i] == b[i];
    if SweepOnGrid(line, line, lo, hi, dest) {
      OnGridPosition(horizontal, line, dest);
      LineSweptOnGrid(b, r', horizontal, line, lo, hi, dest, moved);
    }
  }

  /**
    One pass of an inner sweep loop and the `addDensity` after it: positions
    lo .. hi - 1 of the line are emptied in order, their densities summed into
    `moved`, and `moved` added at position dest. The destination always lies
    just outside the run.
   */
  method ClearRun(b: Buffer, horizontal: bool, line: int, lo: int, hi: int, dest: int) returns (r: Buffer, moved: real)
    requires dest < lo || hi <= dest
    ensures moved == RunSum(b, horizontal, line, lo, hi)
    ensures SameVelocities(b, r)
    ensures SweepOnGrid(line, line, lo, hi, dest) ==> LineSwept(b, r, horizontal, line, lo, hi, dest, moved)
  {
    r := b;
    moved := 0.0;
    var t := lo;
    while t < hi
      invariant lo <= t && (t <= hi || t == lo)
      invariant Cleared(b, r, horizontal, line, lo, t, moved)
    {
      ClearStep(b, r, horizontal, line, lo, t, moved);
      moved := moved + Read(r, PX(horizontal, line, t), PY(horizontal, line, t)).z;
      r := ClearCell(r, horizontal, line, t);
      t := t + 1;
    }
    DropStep(b, r, horizontal, line, lo, hi, dest, t, moved);
    r := DropAt(r, horizontal, line, dest, moved);
  }

  // ------------------------------------------------------------------ sweeping several lines

  /** Positions lo .. hi - 1 have the same densities in both buffers, so the same sum. */
  lemma {:induction false} RunSumFrame(b: Buffer, r: Buffer, horizontal: bool, line: int, lo: int, hi: int)
    requires forall t :: lo <= t < hi ==> DensityOn(r, horizontal, line, t) == DensityOn(b, horizontal, line, t)
    ensures RunSum(r, horizontal, line, lo, hi) == RunSum(b, horizontal, line, lo, hi)
    decreases hi - lo
  {
    if lo < hi {
      RunSumFrame(b, r, horizontal, line, lo, hi - 1);
    }
  }

  /**
    Lines l0 .. ln - 1 have been swept, on the grid: their runs are empty,
    each line's destination gained exactly what its run held in b, and every
    other cell keeps its density.
   */
  ghost predicate LinesSwept(b: Buffer, r: Buffer, horizontal: bool, l0: int, ln: int, lo: int, hi: int, dest: int)
  {
    && (forall line, t :: l0 <= line < ln && lo <= t < hi ==> DensityOn(r, horizontal, line, t) == 0.0)
    && (forall line :: l0 <= line < ln ==>
          DensityOn(r, horizontal, line, dest) == DensityOn(b, horizontal, line, dest) + RunSum(b, horizontal, line, lo, hi))
    && (forall x, y :: IsValidCoord(x, y) && !Swept(horizontal, l0, ln - 1, lo, hi, dest, x, y) ==> Read(r, x, y).z == Read(b, x, y).z)
    && (forall i :: CellCount <= i < Capacity ==> r[i].z == b[i].z)
  }

  /**
    After line ln is swept, the runs of lines l0 .. ln are empty and their
    destinations hold what those runs held in b: line ln's cells were untouched
    before, and earlier lines are not touched again.
   */
  lemma SweepRuns(b: Buffer, r: Buffer, r': Buffer, horizontal: bool, l0: int, ln: int, l1: int, lo: int, hi: int, dest: int, moved: real)
    requires SweepOnGrid(l0, l1, lo, hi, dest) && l0 <= ln <= l1
    requires LinesSwept(b, r, horizontal, l0, ln, lo, hi, dest)
    requires moved == RunSum(r, horizontal, ln, lo, hi)
    requires LineSwept(r, r', horizontal, ln, lo, hi, dest, moved)
    ensures forall line, t :: l0 <= line < ln + 1 && lo <= t < hi ==> DensityOn(r', horizontal, line, t) == 0.0
    ensures forall line :: l0 <= line < ln + 1 ==>
              DensityOn(r', horizontal, line, dest) == DensityOn(b, horizontal, line, dest) + RunSum(b, horizontal, line, lo, hi)
  {
    SweepNewLine(b, r, r', horizontal, l0, ln, l1, lo, hi, dest, moved);
    forall line, t | l0 <= line < ln && lo <= t < hi
      ensures DensityOn(r', horizontal, line, t) == 0.0
    {
      OnGridPosition(horizontal, line, t);
      var x, y := PX(horizontal, line, t), PY(horizontal, line, t);
      assert !Swept(horizontal, ln, ln, lo, hi, dest, x, y);
      assert Read(r', x, y).z == Read(r, x, y).z;
      assert DensityOn(r, horizontal, line, t) == 0.0;
    }
    forall line | l0 <= line < ln
      ensures DensityOn(r', horizontal, line, dest) == DensityOn(b, horizontal, line, dest) + RunSum(b, horizontal, line, lo, hi)
    {
      OnGridPosition(horizontal, line, dest);
      assert !Swept(horizontal, ln, ln, lo, hi, dest, PX(horizontal, line, dest), PY(horizontal, line, dest));
    }
  }

  /** Line ln is swept as if it were the first: its cells were untouched before. */
  lemma SweepNewLine(b: Buffer, r: Buffer, r': Buffer, horizontal: bool, l0: int, ln: int, l1: int, lo: int, hi: int, dest: int, moved: real)
    requires SweepOnGrid(l0, l1, lo, hi, dest) && l0 <= ln <= l1
    requires LinesSwept(b, r, horizontal, l0, ln, lo, hi, dest)
    requires moved == RunSum(r, horizontal, ln, lo, hi)
    requires LineSwept(r, r', horizontal, ln, lo, hi, dest, moved)
    ensures forall t :: lo <= t < hi ==> DensityOn(r', horizontal, ln, t) == 0.0
    ensures DensityOn(r', horizontal, ln, dest) == DensityOn(b, horizontal, ln, dest) + RunSum(b, horizontal, ln, lo, hi)
  {
    forall t | lo <= t < hi
      ensures DensityOn(r, horizontal, ln, t) == DensityOn(b, horizontal, ln, t)
    {
      OnGridPosition(horizontal, ln, t);
    }
    RunSumFrame(b, r, horizontal, ln, lo, hi);
    OnGridPosition(horizontal, ln, dest);
  }

  /** Cells outside lines l0 .. ln, or off the runs and destinations, keep their original value. */
  lemma SweepFrame(b: Buffer, r: Buffer, r': Buffer, horizontal: bool, l0: int, ln: int, l1: int, lo: int, hi: int, dest: int, moved: real)
    requires l0 <= ln
    requires LinesSwept(b, r, horizontal, l0, ln, lo, hi, dest)
    requires LineSwept(r, r', horizontal, ln, lo, hi, dest, moved)
    ensures forall x, y :: IsValidCoord(x, y) && !Swept(horizontal, l0, ln, lo, hi, dest, x, y) ==> Read(r', x, y).z == Read(b, x, y).z
    ensures forall i :: CellCount <= i < Capacity ==> r'[i].z == b[i].z
  {
    forall x, y | IsValidCoord(x, y) && !Swept(horizontal, l0, ln, lo, hi, dest, x, y)
      ensures Read(r', x, y).z == Read(b, x, y).z
    {
      assert !Swept(horizontal, ln, ln, lo, hi, dest, x, y);
      assert !Swept(horizontal, l0, ln - 1, lo, hi, dest, x, y);
    }
  }

  /** The outer loop's whole invariant after lines l0 .. ln - 1. */
  ghost predicate SweepInvariant(b: Buffer, r: Buffer, horizontal: bool, l0: int, ln: int, l1: int, lo: int, hi: int, dest: int)
  {
    && SameVelocities(b, r)
    && (SweepOnGrid(l0, l1, lo, hi, dest) ==> LinesSwept(b, r, horizontal, l0, ln, lo, hi, dest))
  }

  /** Clearing line ln, with the contract of ClearRun, keeps the outer loop's invariant. */
  lemma SweepAdvance(b: Buffer, r: Buffer, r': Buffer, horizontal: bool, l0: int, ln: int, l1: int, lo: int, hi: int, dest: int, moved: real)
    requires l0 <= ln <= l1
    requires SweepInvariant(b, r, horizontal, l0, ln, l1, lo, hi, dest)
    requires moved == RunSum(r, horizontal, ln, lo, hi)
    requires SameVelocities(r, r')
    requires SweepOnGrid(ln, ln, lo, hi, dest) ==> LineSwept(r, r', horizontal, ln, lo, hi, dest, moved)
    ensures SweepInvariant(b, r', horizontal, l0, ln + 1, l1, lo, hi, dest)
  {
    if SweepOnGrid(l0, l1, lo, hi, dest) {
      assert SweepOnGrid(ln, ln, lo, hi, dest);
      SweepRuns(b, r, r', horizontal, l0, ln, l1, lo, hi, dest, moved);
      SweepFrame(b, r, r', horizontal, l0, ln, l1, lo, hi, dest, moved);
    }
  }

  /**
    The outer sweep loop: lines l0 .. l1 are each cleared over positions
    lo .. hi - 1 into position dest. On the grid, every cleared cell ends
    empty, each line's destination gains exactly what its run held, nothing
    else changes, and the total density is kept. Velocities are never touched.
   */
  method SweepLines(b: Buffer, horizontal: bool, l0: int, l1: int, lo: int, hi: int, dest: int) returns (r: Buffer)
    requires dest < lo || hi <= dest
    ensures SameVelocities(b, r)
    ensures SweepOnGrid(l0, l1, lo, hi, dest) ==> LinesSwept(b, r, horizontal, l0, l1 + 1, lo, hi, dest)
  {
    r := b;
    var line := l0;
    while line <= l1
      invariant l0 <= line && (line <= l1 + 1 || line == l0)
      invariant SweepInvariant(b, r, horizontal, l0, line, l1, lo, hi, dest)
    {
      var r', moved := ClearRun(r, horizontal, line, lo, hi, dest);
      SweepAdvance(b, r, r', horizontal, l0, line, l1, lo, hi, dest, moved);
      r := r';
      line := line + 1;
    }
  }

  // ------------------------------------------------------------------ recomputing velocities

  /** Two buffers agree on every cell's density and unused slot. */
  ghost predicate SameDensities(b: Buffer, r: Buffer)
  {
    forall i :: 0 <= i < Capacity ==> r[i].z == b[i].z && r[i].w == b[i].w
  }

  /** Index i is the cell of column x at one of the rows y0 .. y1. */
  ghost predicate InColumn(x: int, y0: int, y1: int, i: int)
  {
    exists y :: y0 <= y <= y1 && i == Index(x, y)
  }

  /**
    Cells (x, y0) .. (x, y1) of the column hold a velocity chosen by the
    velocity rule on densities `d`.
   */
  ghost predicate VelocitiesChosen(d: Buffer, r: Buffer, obs: ObstacleSet, x: int, y0: int, y1: int)
  {
    forall y :: y0 <= y <= y1 && InBuffer(Index(x, y)) ==>
      var c := r[Index(x, y)];
      && Offset(c.vx, c.vy) in Ties(d, obs, x, y)
      && ((c.vx, c.vy) == (0, 0) || IsValidFlowOut(obs, x + c.vx, y + c.vy))
  }

  /** The loop body: recompute the velocity of (x, y) from the current buffer. */
  function Rechoose(r: Buffer, obs: ObstacleSet, x: int, y: int, u: real): (r': Buffer)
    ensures SameDensities(r, r')
    ensures forall i :: 0 <= i < Capacity && i != Index(x, y) ==> r'[i] == r[i]
    ensures InBuffer(Index(x, y)) ==> Offset(r'[Index(x, y)].vx, r'[Index(x, y)].vy) == ComputeVelocity(r, obs, x, y, u)
  {
    var v := ComputeVelocity(r, obs, x, y, u);
    SetVelocity(r, x, y, v.dx, v.dy)
  }

  /** Recomputing (x, y) sets a velocity the rule allows on the densities of b, which r still has. */
  lemma RechooseChosen(b: Buffer, r: Buffer, obs: ObstacleSet, x: int, y: int, u: real)
    requires SameDensities(b, r)
    ensures VelocitiesChosen(b, Rechoose(r, obs, x, y, u), obs, x, y, y)
  {
    TiesReadDensityOnly(b, r, obs, x, y);
    var v := ComputeVelocity(r, obs, x, y, u);
    assert v in Ties(b, obs, x, y);
  }

  /** One iteration of the column loop keeps its invariant. */
  lemma RecomputeStep(b: Buffer, r: Buffer, obs: ObstacleSet, x: int, y0: int, y: int, u: real)
    requires y0 <= y
    requires SameDensities(b, r)
    requires VelocitiesChosen(b, r, obs, x, y0, y - 1)
    requires forall i :: 0 <= i < Capacity && !InColumn(x, y0, y - 1, i) ==> r[i] == b[i]
    ensures SameDensities(b, Rechoose(r, obs, x, y, u))
    ensures VelocitiesChosen(b, Rechoose(r, obs, x, y, u), obs, x, y0, y)
    ensures forall i :: 0 <= i < Capacity && !InColumn(x, y0, y, i) ==> Rechoose(r, obs, x, y, u)[i] == b[i]
  {
    var r' := Rechoose(r, obs, x, y, u);
    RechooseChosen(b, r, obs, x, y, u);
    forall y' | y0 <= y' < y && InBuffer(Index(x, y'))
      ensures r'[Index(x, y')] == r[Index(x, y')]
    {
    }
    forall i | 0 <= i < Capacity && !InColumn(x, y0, y, i)
      ensures r'[i] == b[i]
    {
      assert i != Index(x, y);
      assert !InColumn(x, y0, y - 1, i);
    }
  }

  /**
    One of the two column loops at the end of `mainMoveObstacles`: the velocity
    of each cell (x, y0) .. (x, y1) is recomputed in place, in increasing y. The
    index is formed without a range check, so a column just off the grid
    addresses cells of a neighbouring row. Densities are never changed, so
    every choice sees the densities of b.
   */
  method RecomputeColumn(b: Buffer, obs: ObstacleSet, x: int, y0: int, y1: int, draw: Draws) returns (r: Buffer)
    ensures SameDensities(b, r)
    ensures VelocitiesChosen(b, r, obs, x, y0, y1)
    ensures forall i :: 0 <= i < Capacity && !InColumn(x, y0, y1, i) ==> r[i] == b[i]
  {
    r := b;
    var y := y0;
    while y <= y1
      invariant y0 <= y && (y <= y1 + 1 || y == y0)
      invariant SameDensities(b, r)
      invariant VelocitiesChosen(b, r, obs, x, y0, y - 1)
      invariant forall i :: 0 <= i < Capacity && !InColumn(x, y0, y - 1, i) ==> r[i] == b[i]
    {
      RecomputeStep(b, r, obs, x, y0, y, draw(y));
      r := Rechoose(r, obs, x, y, draw(y));
      y := y + 1;
    }
  }

  /** A column's recomputed velocities are chosen by the rule on the densities of any buffer with the same densities. */
  lemma ChosenOnSameDensities(d: Buffer, d': Buffer, r: Buffer, obs: ObstacleSet, x: int, y0: int, y1: int)
    requires SameDensities(d, d')
    requires VelocitiesChosen(d, r, obs, x, y0, y1)
    ensures VelocitiesChosen(d', r, obs, x, y0, y1)
  {
    forall y | y0 <= y <= y1
      ensures Ties(d, obs, x, y) == Ties(d', obs, x, y)
    {
      TiesReadDensityOnly(d, d', obs, x, y);
    }
  }

  /**
    Two columns whose distance is not a multiple of the grid width share no
    index, whatever the rows, on the grid or off it: an index moves by a whole
    grid width from one row to the next.
   */
  lemma ColumnsDisjoint(x: int, x': int, y0': int, y1': int, y: int)
    requires (x' - x) % GridSize != 0
    ensures !InColumn(x', y0', y1', Index(x, y))
  {
    forall y' | y0' <= y' <= y1'
      ensures Index(x, y) != Index(x', y')
    {
      assert Index(x, y) - Index(x', y') == (x - x') + GridSize * (y - y');
    }
  }

  /** Recomputing another column, at a distance that is not a multiple of the grid width, does not disturb a column's velocities. */
  lemma ChosenKept(d: Buffer, r: Buffer, r': Buffer, obs: ObstacleSet, x: int, y0: int, y1: int, x': int, y0': int, y1': int)
    requires (x' - x) % GridSize != 0
    requires VelocitiesChosen(d, r, obs, x, y0, y1)
    requires forall i :: 0 <= i < Capacity && !InColumn(x', y0', y1', i) ==> r'[i] == r[i]
    ensures VelocitiesChosen(d, r', obs, x, y0, y1)
  {
    forall y | y0 <= y <= y1 && InBuffer(Index(x, y))
      ensures r'[Index(x, y)] == r[Index(x, y)]
    {
      ColumnsDisjoint(x, x', y0', y1', y);
    }
  }

  /** Velocity rewrites keep a sweep's effect on densities. */
  lemma SweptKept(b: Buffer, r: Buffer, r': Buffer, horizontal: bool, l0: int, ln: int, lo: int, hi: int, dest: int)
    requires LinesSwept(b, r, horizontal, l0, ln, lo, hi, dest)
    requires SameDensities(r, r')
    ensures LinesSwept(b, r', horizontal, l0, ln, lo, hi, dest)
  {
    forall x, y
      ensures Read(r', x, y).z == Read(r, x, y).z
    {
    }
    forall line, t
      ensures DensityOn(r', horizontal, line, t) == DensityOn(r, horizontal, line, t)
    {
    }
  }

  // ------------------------------------------------------------------ one obstacle

  datatype Direction = Right | Left | Up | Down

  /** The lines, run and destination of one sweep of SweepLines. */
  datatype Sweep = Sweep(horizontal: bool, l0: int, l1: int, lo: int, hi: int, dest: int)

  /** The box the obstacle will occupy: the next centre with the previous size. */
  function NextBox(prev: Obstacle, next: Obstacle): Box
  {
    BoxAt(next.cx, next.cy, prev.sx, prev.sy)
  }

  /**
    The sweep a move in direction d performs: the rows (or columns) of the old
    box, cleared from the old leading edge up to the new one, into the cell just
    past the new edge.
   */
  function SweepFor(prev: Obstacle, next: Obstacle, d: Direction): (s: Sweep)
    ensures s.dest < s.lo || s.hi <= s.dest
  {
    var ob := BoxOf(prev);
    var nb := NextBox(prev, next);
    match d
    case Right => Sweep(true, ob.minY, ob.maxY, ob.maxX, nb.maxX + 1, nb.maxX + 1)
    case Left => Sweep(true, ob.minY, ob.maxY, nb.minX, ob.minX, nb.minX - 1)
    case Up => Sweep(false, ob.minX, ob.maxX, ob.maxY, nb.maxY + 1, nb.maxY + 1)
    case Down => Sweep(false, ob.minX, ob.maxX, nb.minY, ob.minY, nb.minY - 1)
  }

  /** The centre moves in direction d and in no other. */
  predicate MovesOnly(prev: Obstacle, next: Obstacle, d: Direction)
  {
    match d
    case Right => next.cx > prev.cx && next.cy == prev.cy
    case Left => next.cx < prev.cx && next.cy == prev.cy
    case Up => next.cy > prev.cy && next.cx == prev.cx
    case Down => next.cy < prev.cy && next.cx == prev.cx
  }

  predicate SweepStaysOnGrid(s: Sweep)
  {
    SweepOnGrid(s.l0, s.l1, s.lo, s.hi, s.dest)
  }

  /** The effect of sweep s on the densities of b is visible in r. */
  ghost predicate SweepDone(b: Buffer, r: Buffer, s: Sweep)
  {
    LinesSwept(b, r, s.horizontal, s.l0, s.l1 + 1, s.lo, s.hi, s.dest)
  }

  /** Run sweep s when `moved` holds (one `if (diff...)` block); otherwise leave the buffer alone. */
  method SweepIf(b: Buffer, moved: bool, s: Sweep) returns (r: Buffer)
    requires s.dest < s.lo || s.hi <= s.dest
    ensures !moved ==> r == b
    ensures SameVelocities(b, r)
    ensures moved && SweepStaysOnGrid(s) ==> SweepDone(b, r, s)
  {
    r := b;
    if moved {
      r := SweepLines(b, s.horizontal, s.l0, s.l1, s.lo, s.hi, s.dest);
    }
  }

  /**
    The four `if` blocks of one obstacle, in the source's order. When the
    centre moves along one axis only, exactly one sweep runs and its effect is
    what the buffer shows; when it does not move, nothing changes.
   */
  method SweepMoves(b: Buffer, prev: Obstacle, next: Obstacle) returns (r: Buffer)
    ensures SameVelocities(b, r)
    ensures prev.cx == next.cx && prev.cy == next.cy ==> r == b
    ensures forall d :: MovesOnly(prev, next, d) && SweepStaysOnGrid(SweepFor(prev, next, d)) ==> SweepDone(b, r, SweepFor(prev, next, d))
  {
    var r1 := SweepIf(b, next.cx > prev.cx, SweepFor(prev, next, Right));
    var r2 := SweepIf(r1, next.cx < prev.cx, SweepFor(prev, next, Left));
    var r3 := SweepIf(r2, next.cy > prev.cy, SweepFor(prev, next, Up));
    r := SweepIf(r3, next.cy < prev.cy, SweepFor(prev, next, Down));
  }

  /** The column left of the new box and the column two past its right edge. */
  function LeftColumn(prev: Obstacle, next: Obstacle): int
  {
    NextBox(prev, next).minX - 1
  }

  function RightColumn(prev: Obstacle, next: Obstacle): int
  {
    NextBox(prev, next).maxX + 2
  }

  function RightColumnTop(prev: Obstacle, next: Obstacle): int
  {
    var m := NextBox(prev, next).maxY;
    if m < GridSize - 2 then m else GridSize - 2
  }

  function RightColumnBottom(prev: Obstacle, next: Obstacle): int
  {
    var m := NextBox(prev, next).minY;
    if 1 < m then m else 1
  }

  /** Buffer index i lies in neither of the two columns recomputed after a move. */
  ghost predicate OutsideColumns(prev: Obstacle, next: Obstacle, i: int)
  {
    && !InColumn(LeftColumn(prev, next), NextBox(prev, next).minY, NextBox(prev, next).maxY, i)
    && !InColumn(RightColumn(prev, next), RightColumnBottom(prev, next), RightColumnTop(prev, next), i)
  }

  /**
    When the left column is on the grid, the new box is not clamped on the
    left, so the right column lies an odd number of columns further on: the
    two columns never share an index, even when the right one is off the grid.
   */
  lemma ColumnsApart(prev: Obstacle, next: Obstacle)
    requires 0 <= LeftColumn(prev, next)
    ensures RightColumn(prev, next) - LeftColumn(prev, next) == 2 * (prev.sx / 2) + 3
    ensures (RightColumn(prev, next) - LeftColumn(prev, next)) % GridSize != 0
  {
    var k := prev.sx / 2;
    var d := RightColumn(prev, next) - LeftColumn(prev, next);
    assert d == 2 * k + 3;
  }

  /**
    The two column loops that end one obstacle's pass: the left column is
    recomputed over the new box's rows, then the right column over the rows
    clamped to 1 .. gridSize - 2. The right column's velocities are those the
    rule picks on the final densities; so are the left column's whenever it
    lies on the grid, since the right loop cannot overwrite them.
   */
  method RecomputeColumns(b: Buffer, prev: Obstacle, next: Obstacle, obs: ObstacleSet, leftDraw: Draws, rightDraw: Draws) returns (r: Buffer)
    ensures SameDensities(b, r)
    ensures VelocitiesChosen(r, r, obs, RightColumn(prev, next), RightColumnBottom(prev, next), RightColumnTop(prev, next))
    ensures 0 <= LeftColumn(prev, next) ==>
              VelocitiesChosen(r, r, obs, LeftColumn(prev, next), NextBox(prev, next).minY, NextBox(prev, next).maxY)
    ensures forall i :: 0 <= i < Capacity && OutsideColumns(prev, next, i) ==> r[i] == b[i]
  {
    var nb := NextBox(prev, next);
    var xl, xr := LeftColumn(prev, next), RightColumn(prev, next);
    var yb, yt := RightColumnBottom(prev, next), RightColumnTop(prev, next);
    var r1 := RecomputeColumn(b, obs, xl, nb.minY, nb.maxY, leftDraw);
    r := RecomputeColumn(r1, obs, xr, yb, yt, rightDraw);
    ChosenOnSameDensities(r1, r, r, obs, xr, yb, yt);
    if 0 <= xl {
      ColumnsApart(prev, next);
      ChosenKept(b, r1, r, obs, xl, nb.minY, nb.maxY, xr, yb, yt);
      ChosenOnSameDensities(b, r, r, obs, xl, nb.minY, nb.maxY);
    }
  }

  /**
    One iteration of the obstacle loop of `mainMoveObstacles`, for an obstacle
    whose previous snapshot is `prev` and whose next snapshot is `next`; `obs`
    is the next obstacle list, which the velocity rule consults. A disabled
    obstacle is skipped. Otherwise the sweeps for the directions the centre
    moved in run right, left, up, down in that order, and then the velocities
    of the left column and the right column are recomputed.
   */
  method MoveObstacle(b: Buffer, prev: Obstacle, next: Obstacle, obs: ObstacleSet, leftDraw: Draws, rightDraw: Draws) returns (r: Buffer)
    ensures !prev.enabled ==> r == b
    ensures forall i :: 0 <= i < Capacity ==> r[i].w == b[i].w
    ensures prev.cx == next.cx && prev.cy == next.cy ==> forall i :: 0 <= i < Capacity ==> r[i].z == b[i].z
    ensures prev.enabled ==> forall d :: MovesOnly(prev, next, d) && SweepStaysOnGrid(SweepFor(prev, next, d)) ==> SweepDone(b, r, SweepFor(prev, next, d))
    ensures prev.enabled ==>
              VelocitiesChosen(r, r, obs, RightColumn(prev, next), RightColumnBottom(prev, next), RightColumnTop(prev, next))
    ensures prev.enabled && 0 <= LeftColumn(prev, next) ==>
              VelocitiesChosen(r, r, obs, LeftColumn(prev, next), NextBox(prev, next).minY, NextBox(prev, next).maxY)
    ensures forall i :: 0 <= i < Capacity && OutsideColumns(prev, next, i) ==> r[i].vx == b[i].vx && r[i].vy == b[i].vy
  {
    if !prev.enabled {
      return b;
    }
    var swept := SweepMoves(b, prev, next);
    r := RecomputeColumns(swept, prev, next, obs, leftDraw, rightDraw);
    forall d | MovesOnly(prev, next, d) && SweepStaysOnGrid(SweepFor(prev, next, d))
      ensures SweepDone(b, r, SweepFor(prev, next, d))
    {
      var s := SweepFor(prev, next, d);
      SweptKept(b, swept, r, s.horizontal, s.l0, s.l1 + 1, s.lo, s.hi, s.dest);
    }
  }

  // ------------------------------------------------------------------ all obstacles

  /** No obstacle's centre differs between the two snapshots. */
  predicate NoneMoved(prevSet: ObstacleSet, nextSet: ObstacleSet)
  {
    forall j :: 0 <= j < MaxObstacles ==> prevSet[j].cx == nextSet[j].cx && prevSet[j].cy == nextSet[j].cy
  }

  predicate NoneEnabled(obs: ObstacleSet)
  {
    forall j :: 0 <= j < MaxObstacles ==> !obs[j].enabled
  }

  /**
    `mainMoveObstacles`: each obstacle in turn, on the buffer the previous ones
    left. `draws(2 * j)` and `draws(2 * j + 1)` stand for the random draws of
    obstacle j's left and right column loops. The unused slot of every cell is
    kept; if no obstacle was enabled nothing changes, and if none moved no
    density changes.
   */
  method MoveObstacles(b: Buffer, prevSet: ObstacleSet, nextSet: ObstacleSet, draws: int -> Draws) returns (r: Buffer)
    ensures NoneEnabled(prevSet) ==> r == b
    ensures NoneMoved(prevSet, nextSet) ==> forall i :: 0 <= i < Capacity ==> r[i].z == b[i].z
    ensures forall i :: 0 <= i < Capacity ==> r[i].w == b[i].w
  {
    r := b;
    var j := 0;
    while j < MaxObstacles
      invariant 0 <= j <= MaxObstacles
      invariant NoneEnabled(prevSet) ==> r == b
      invariant NoneMoved(prevSet, nextSet) ==> forall i :: 0 <= i < Capacity ==> r[i].z == b[i].z
      invariant forall i :: 0 <= i < Capacity ==> r[i].w == b[i].w
    {
      r := MoveObstacle(r, prevSet[j], nextSet[j], nextSet, draws(2 * j), draws(2 * j + 1));
      j := j + 1;
    }
  }
}

=== FILE: obstacles.dfy ===
/**
  The obstacle set: axis-aligned boxes given by a centre and a size, each of
  which can be switched off, and the membership tests built on them.
 */
module Obstacles {
  import opened Grid

  /** `MAX_OBSTACLES`: length of the obstacle buffers. */
  const MaxObstacles: int := 3

  /** `BoxObstacle`: unsigned centre and size, enabled flag. */
  datatype Obstacle = Obstacle(cx: nat, cy: nat, sx: nat, sy: nat, enabled: bool)

  const Disabled: Obstacle := Obstacle(0, 0, 0, 0, false)

  /** The contents of one obstacle buffer. */
  type ObstacleSet = s: seq<Obstacle> | |s| == MaxObstacles witness [Disabled, Disabled, Disabled]

  /** Inclusive cell bounds of a box. */
  datatype Box = Box(minX: int, maxX: int, minY: int, maxY: int)

  /** Lower edge of a span centred at c of size s: `max(0, c - s/2)`. */
  function SpanMin(c: int, s: nat): (r: int)
    ensures 0 <= r && c - s / 2 <= r
    ensures r == c - s / 2 || r == 0
  {
    if c - s / 2 < 0 then 0 else c - s / 2
  }

  /** Upper edge of a span centred at c of size s: `max(0, c + s/2)`. */
  function SpanMax(c: int, s: nat): (r: int)
    ensures 0 <= r && c + s / 2 <= r
    ensures r == c + s / 2 || r == 0
  {
    if c + s / 2 < 0 then 0 else c + s / 2
  }

  /** The box a size occupies when centred at (cx, cy). */
  function BoxAt(cx: int, cy: int, sx: nat, sy: nat): Box
  {
    Box(SpanMin(cx, sx), SpanMax(cx, sx), SpanMin(cy, sy), SpanMax(cy, sy))
  }

  function BoxOf(o: Obstacle): Box
  {
    BoxAt(o.cx, o.cy, o.sx, o.sy)
  }

  predicate InBox(b: Box, x: int, y: int)
  {
    b.minX <= x <= b.maxX && b.minY <= y <= b.maxY
  }

  /** Whether some enabled obstacle among obs[i..] covers (x, y): the loop of `isInsideObstacle` from i on. */
  function InsideFrom(obs: seq<Obstacle>, x: int, y: int, i: nat): (r: bool)
    requires i <= |obs|
    ensures r <==> exists j :: i <= j < |obs| && obs[j].enabled && InBox(BoxOf(obs[j]), x, y)
    decreases |obs| - i
  {
    if i == |obs| then false
    else if !obs[i].enabled then InsideFrom(obs, x, y, i + 1)
    else if InBox(BoxOf(obs[i]), x, y) then true
    else InsideFrom(obs, x, y, i + 1)
  }

  /** `isInsideObstacle`: (x, y) lies in the box of an enabled obstacle. */
  function IsInsideObstacle(obs: ObstacleSet, x: int, y: int): (r: bool)
    ensures r <==> exists j :: 0 <= j < MaxObstacles && obs[j].enabled && InBox(BoxOf(obs[j]), x, y)
    ensures r ==> exists j :: 0 <= j < MaxObstacles && obs[j].enabled
  {
    InsideFrom(obs, x, y, 0)
  }

  /** `isValidFlowOut`: mass may flow into (x, y). */
  predicate IsValidFlowOut(obs: ObstacleSet, x: int, y: int)
  {
    IsValidCoord(x, y) && !IsInsideObstacle(obs, x, y)
  }

  /** Disabled obstacles never block flow: only the grid bounds matter then. */
  lemma DisabledObstaclesAreInert(obs: ObstacleSet, x: int, y: int)
    requires forall j :: 0 <= j < MaxObstacles ==> !obs[j].enabled
    ensures IsValidFlowOut(obs, x, y) <==> IsValidCoord(x, y)
  {
  }
}

=== FILE: palette.dfy ===
/**
  The colour classes the tile and box views share: nothing drawn (the zero
  vector `vec4f()`), the tan colour of a count still below the goal, and the
  green colour of a count that reached it. Opacities are not modelled.
 */
module Palette {

  datatype Shade = Clear | Tan | Green

  /** The RGB part of each class, as both views write it. */
  function Rgb(s: Shade): (real, real, real)
  {
    match s
    case Clear => (0.0, 0.0, 0.0)
    case Tan => (0.76, 0.65, 0.58)
    case Green => (0.604, 0.694, 0.608)
  }

  /** The three classes have distinct colours, so a rendered pixel tells them apart. */
  lemma ShadesAreDistinct(s: Shade, t: Shade)
    requires s != t
    ensures Rgb(s) != Rgb(t)
  {
  }
}

=== FILE: settings.dfy ===
/**
  The settings screen: the goal field and the "reset today's count" button.
  `Number.parseInt` is not modelled; the goal handler receives its result,
  with None standing for NaN.
 */
module Settings {
  import opened Wrappers

  /** JavaScript truthiness of a parsed number: NaN and 0 are falsy. */
  predicate Truthy(parsed: Option<int>)
  {
    parsed.Some? && parsed.value != 0
  }

  /** The goal after the field's change handler: replaced only by a truthy, positive parse. */
  function UpdateGoal(goal: int, parsed: Option<int>): (r: int)
    ensures r != goal ==> parsed.Some? && r == parsed.value
    ensures parsed.Some? && parsed.value > 0 ==> r == parsed.value
    ensures parsed.None? || parsed.value <= 0 ==> r == goal
  {
    if Truthy(parsed) && parsed.value > 0 then parsed.value else goal
  }

  /** Whatever is typed, a positive goal stays positive. */
  lemma GoalStaysPositive(goal: int, parsed: Option<int>)
    requires goal > 0
    ensures UpdateGoal(goal, parsed) > 0
  {
  }

  /**
    `list.splice(0, count)`: the removed prefix. A negative count removes
    nothing and a count past the end removes everything.
   */
  function SpliceFromStart(list: seq<int>, count: int): (removed: seq<int>)
    ensures |removed| == if count < 0 then 0 else if count > |list| then |list| else count
    ensures removed == list[..|removed|]
  {
    if count < 0 then [] else if count > |list| then list else list[..count]
  }

  /** The tracker list after "reset today's count": all but the last entry, then a 0. */
  function ResetToday(list: seq<int>): seq<int>
  {
    SpliceFromStart(list, |list| - 1) + [0]
  }

  /**
    Resetting a non-empty list keeps its length and every earlier day and sets
    today's count to 0; resetting an empty list starts it with a 0.
   */
  lemma ResetTodayShape(list: seq<int>)
    ensures list != [] ==> |ResetToday(list)| == |list|
    ensures forall i :: 0 <= i < |list| - 1 ==> ResetToday(list)[i] == list[i]
    ensures ResetToday(list)[|ResetToday(list)| - 1] == 0
    ensures list == [] ==> ResetToday(list) == [0]
  {
  }

  /** Resetting twice is resetting once. */
  lemma ResetTodayIdempotent(list: seq<int>)
    ensures ResetToday(ResetToday(list)) == ResetToday(list)
  {
    var r := ResetToday(list);
    assert r[..|r| - 1] + [0] == r;
  }
}

=== FILE: sums.dfy ===
/**
  Finite sums of real-valued functions over the cells of a square n x n grid,
  with the pointwise, additivity and reindexing lemmas the mass-conservation
  proof needs. A grid sum is taken row by row: Rows sums whole rows, Row sums
  the cells of one row.
 */
module Sums {

  /** f(lo, y) + f(lo + 1, y) + ... + f(hi - 1, y): part of row y. */
  function Row(f: (int, int) -> real, y: int, lo: int, hi: int): real
    decreases hi - lo
  {
    if hi <= lo then 0.0 else Row(f, y, lo, hi - 1) + f(hi - 1, y)
  }

  /** The whole rows lo .. hi - 1 of the n x n grid. */
  function Rows(f: (int, int) -> real, n: nat, lo: int, hi: int): real
    decreases hi - lo
  {
    if hi <= lo then 0.0 else Rows(f, n, lo, hi - 1) + Row(f, hi - 1, 0, n)
  }

  /** The sum of f over every cell (x, y) with 0 <= x, y < n. */
  function GridSum(n: nat, f: (int, int) -> real): real
  {
    Rows(f, n, 0, n)
  }

  ghost predicate OnGrid(n: nat, x: int, y: int)
  {
    0 <= x < n && 0 <= y < n
  }

  // ---------------------------------------------------------------- rows

  /** Row yf of f and row yg of g agree cell by cell, so they have the same sum. */
  lemma {:induction false} RowPointwise(f: (int, int) -> real, yf: int, g: (int, int) -> real, yg: int, lo: int, hi: int)
    requires forall x :: lo <= x < hi ==> f(x, yf) == g(x, yg)
    ensures Row(f, yf, lo, hi) == Row(g, yg, lo, hi)
    decreases hi - lo
  {
    if lo < hi {
      RowPointwise(f, yf, g, yg, lo, hi - 1);
    }
  }

  lemma {:induction false} RowAdd(f: (int, int) -> real, g: (int, int) -> real, h: (int, int) -> real, y: int, lo: int, hi: int)
    requires forall x :: lo <= x < hi ==> h(x, y) == f(x, y) + g(x, y)
    ensures Row(h, y, lo, hi) == Row(f, y, lo, hi) + Row(g, y, lo, hi)
    decreases hi - lo
  {
    if lo < hi {
      RowAdd(f, g, h, y, lo, hi - 1);
    }
  }

  lemma {:induction false} RowNonNegative(f: (int, int) -> real, y: int, lo: int, hi: int)
    requires forall x :: lo <= x < hi ==> 0.0 <= f(x, y)
    ensures 0.0 <= Row(f, y, lo, hi)
    decreases hi - lo
  {
    if lo < hi {
      RowNonNegative(f, y, lo, hi - 1);
    }
  }

  lemma {:induction false} RowZero(f: (int, int) -> real, y: int, lo: int, hi: int)
    requires forall x :: lo <= x < hi ==> f(x, y) == 0.0
    ensures Row(f, y, lo, hi) == 0.0
    decreases hi - lo
  {
    if lo < hi {
      RowZero(f, y, lo, hi - 1);
    }
  }

  /** Row a reads g one column to the right: its first m cells sum g over columns 1 .. m. */
  lemma {:induction false} RowShiftedPrefix(g: (int, int) -> real, a: (int, int) -> real, y: int, m: int)
    requires 0 <= m
    requires forall x :: 0 <= x < m ==> a(x, y) == g(x + 1, y)
    ensures Row(a, y, 0, m) == Row(g, y, 1, m + 1)
    decreases m
  {
    if m > 0 {
      RowShiftedPrefix(g, a, y, m - 1);
    }
  }

  /** Row b keeps g except in column 0: its first m + 1 cells sum g over columns 1 .. m. */
  lemma {:induction false} RowMaskedPrefix(g: (int, int) -> real, b: (int, int) -> real, y: int, m: int)
    requires 0 <= m
    requires forall x :: 0 <= x <= m ==> b(x, y) == (if 1 <= x then g(x, y) else 0.0)
    ensures Row(b, y, 0, m + 1) == Row(g, y, 1, m + 1)
    decreases m
  {
    if m > 0 {
      RowMaskedPrefix(g, b, y, m - 1);
    }
  }

  /** Reindexing one row: reading one column to the right equals reading in place from column 1. */
  lemma RowShift(n: nat, g: (int, int) -> real, a: (int, int) -> real, b: (int, int) -> real, y: int)
    requires forall x :: 0 <= x < n ==> a(x, y) == (if x + 1 < n then g(x + 1, y) else 0.0)
    requires forall x :: 0 <= x < n ==> b(x, y) == (if 1 <= x then g(x, y) else 0.0)
    ensures Row(a, y, 0, n) == Row(b, y, 0, n)
  {
    if n > 0 {
      RowShiftedPrefix(g, a, y, n - 1);
      RowMaskedPrefix(g, b, y, n - 1);
    }
  }

  // ---------------------------------------------------------------- whole rows

  lemma {:induction false} RowsPointwise(f: (int, int) -> real, g: (int, int) -> real, n: nat, lo: int, hi: int)
    requires forall y :: lo <= y < hi ==> Row(f, y, 0, n) == Row(g, y, 0, n)
    ensures Rows(f, n, lo, hi) == Rows(g, n, lo, hi)
    decreases hi - lo
  {
    if lo < hi {
      RowsPointwise(f, g, n, lo, hi - 1);
    }
  }

  lemma {:induction false} RowsAdd(f: (int, int) -> real, g: (int, int) -> real, h: (int, int) -> real, n: nat, lo: int, hi: int)
    requires forall y :: lo <= y < hi ==> Row(h, y, 0, n) == Row(f, y, 0, n) + Row(g, y, 0, n)
    ensures Rows(h, n, lo, hi) == Rows(f, n, lo, hi) + Rows(g, n, lo, hi)
    decreases hi - lo
  {
    if lo < hi {
      RowsAdd(f, g, h, n, lo, hi - 1);
    }
  }

  lemma {:induction false} RowsNonNegative(f: (int, int) -> real, n: nat, lo: int, hi: int)
    requires forall y :: lo <= y < hi ==> 0.0 <= Row(f, y, 0, n)
    ensures 0.0 <= Rows(f, n, lo, hi)
    decreases hi - lo
  {
    if lo < hi {
      RowsNonNegative(f, n, lo, hi - 1);
    }
  }

  lemma {:induction false} RowsShiftedPrefix(g: (int, int) -> real, a: (int, int) -> real, n: nat, m: int)
    requires 0 <= m
    requires forall y :: 0 <= y < m ==> Row(a, y, 0, n) == Row(g, y + 1, 0, n)
    ensures Rows(a, n, 0, m) == Rows(g, n, 1, m + 1)
    decreases m
  {
    if m > 0 {
      RowsShiftedPrefix(g, a, n, m - 1);
    }
  }

  lemma {:induction false} RowsMaskedPrefix(g: (int, int) -> real, b: (int, int) -> real, n: nat, m: int)
    requires 0 <= m
    requires forall y :: 0 <= y <= m ==> Row(b, y, 0, n) == (if 1 <= y then Row(g, y, 0, n) else 0.0)
    ensures Rows(b, n, 0, m + 1) == Rows(g, n, 1, m + 1)
    decreases m
  {
    if m > 0 {
      RowsMaskedPrefix(g, b, n, m - 1);
    }
  }

  // ---------------------------------------------------------------- whole grid

  lemma GridPointwise(n: nat, f: (int, int) -> real, g: (int, int) -> real)
    requires forall x, y :: OnGrid(n, x, y) ==> f(x, y) == g(x, y)
    ensures GridSum(n, f) == GridSum(n, g)
  {
    forall y | 0 <= y < n
      ensures Row(f, y, 0, n) == Row(g, y, 0, n)
    {
      assert forall x :: 0 <= x < n ==> OnGrid(n, x, y);
      RowPointwise(f, y, g, y, 0, n);
    }
    RowsPointwise(f, g, n, 0, n);
  }

  lemma GridAdd(n: nat, f: (int, int) -> real, g: (int, int) -> real, h: (int, int) -> real)
    requires forall x, y :: OnGrid(n, x, y) ==> h(x, y) == f(x, y) + g(x, y)
    ensures GridSum(n, h) == GridSum(n, f) + GridSum(n, g)
  {
    forall y | 0 <= y < n
      ensures Row(h, y, 0, n) == Row(f, y, 0, n) + Row(g, y, 0, n)
    {
      assert forall x :: 0 <= x < n ==> OnGrid(n, x, y);
      RowAdd(f, g, h, y, 0, n);
    }
    RowsAdd(f, g, h, n, 0, n);
  }

  lemma GridNonNegative(n: nat, f: (int, int) -> real)
    requires forall x, y :: OnGrid(n, x, y) ==> 0.0 <= f(x, y)
    ensures 0.0 <= GridSum(n, f)
  {
    forall y | 0 <= y < n
      ensures 0.0 <= Row(f, y, 0, n)
    {
      assert forall x :: 0 <= x < n ==> OnGrid(n, x, y);
      RowNonNegative(f, y, 0, n);
    }
    RowsNonNegative(f, n, 0, n);
  }

  /** Reindexing along x: reading one column to the right equals reading in place from column 1. */
  lemma GridShiftX(n: nat, g: (int, int) -> real, a: (int, int) -> real, b: (int, int) -> real)
    requires forall x, y :: OnGrid(n, x, y) ==> a(x, y) == (if x + 1 < n then g(x + 1, y) else 0.0)
    requires forall x, y :: OnGrid(n, x, y) ==> b(x, y) == (if 1 <= x then g(x, y) else 0.0)
    ensures GridSum(n, a) == GridSum(n, b)
  {
    forall y | 0 <= y < n
      ensures Row(a, y, 0, n) == Row(b, y, 0, n)
    {
      assert forall x :: 0 <= x < n ==> OnGrid(n, x, y);
      RowShift(n, g, a, b, y);
    }
    RowsPointwise(a, b, n, 0, n);
  }

  /** Reindexing along y: reading one row further equals reading in place from row 1. */
  lemma GridShiftY(n: nat, g: (int, int) -> real, a: (int, int) -> real, b: (int, int) -> real)
    requires forall x, y :: OnGrid(n, x, y) ==> a(x, y) == (if y + 1 < n then g(x, y + 1) else 0.0)
    requires forall x, y :: OnGrid(n, x, y) ==> b(x, y) == (if 1 <= y then g(x, y) else 0.0)
    ensures GridSum(n, a) == GridSum(n, b)
  {
    forall y | 0 <= y < n
      ensures Row(a, y, 0, n) == (if y + 1 < n then Row(g, y + 1, 0, n) else 0.0)
    {
      if y + 1 < n {
        assert forall x :: 0 <= x < n ==> OnGrid(n, x, y) && a(x, y) == g(x, y + 1);
        RowPointwise(a, y, g, y + 1, 0, n);
      } else {
        assert forall x :: 0 <= x < n ==> OnGrid(n, x, y);
        RowZero(a, y, 0, n);
      }
    }
    forall y | 0 <= y < n
      ensures Row(b, y, 0, n) == (if 1 <= y then Row(g, y, 0, n) else 0.0)
    {
      assert forall x :: 0 <= x < n ==> OnGrid(n, x, y);
      if 1 <= y {
        RowPointwise(b, y, g, y, 0, n);
      } else {
        RowZero(b, y, 0, n);
      }
    }
    if n > 0 {
      RowsShiftedPrefix(g, a, n, n - 1);
      RowsMaskedPrefix(g, b, n, n - 1);
      assert Row(a, n - 1, 0, n) == 0.0;
      assert Rows(a, n, 0, n) == Rows(a, n, 0, n - 1) + Row(a, n - 1, 0, n);
    }
  }

  // ---------------------------------------------------------------- single-cell functions

  /** A row that is zero except possibly at column x0 sums to its value there. */
  lemma {:induction false} RowPoint(f: (int, int) -> real, y: int, lo: int, hi: int, x0: int)
    requires forall x :: lo <= x < hi && x != x0 ==> f(x, y) == 0.0
    ensures Row(f, y, lo, hi) == (if lo <= x0 < hi then f(x0, y) else 0.0)
    decreases hi - lo
  {
    if lo < hi {
      RowPoint(f, y, lo, hi - 1, x0);
    }
  }

  lemma {:induction false} RowsPoint(f: (int, int) -> real, n: nat, lo: int, hi: int, y0: int)
    requires forall y :: lo <= y < hi && y != y0 ==> Row(f, y, 0, n) == 0.0
    ensures Rows(f, n, lo, hi) == (if lo <= y0 < hi then Row(f, y0, 0, n) else 0.0)
    decreases hi - lo
  {
    if lo < hi {
      RowsPoint(f, n, lo, hi - 1, y0);
    }
  }

  /** A function that is zero on the grid except possibly at (x0, y0) has grid sum f(x0, y0). */
  lemma GridPoint(n: nat, f: (int, int) -> real, x0: int, y0: int)
    requires OnGrid(n, x0, y0)
    requires forall x, y :: OnGrid(n, x, y) && (x, y) != (x0, y0) ==> f(x, y) == 0.0
    ensures GridSum(n, f) == f(x0, y0)
  {
    forall y | 0 <= y < n && y != y0
      ensures Row(f, y, 0, n) == 0.0
    {
      assert forall x :: 0 <= x < n ==> OnGrid(n, x, y);
      RowZero(f, y, 0, n);
    }
    assert forall x :: 0 <= x < n && x != x0 ==> OnGrid(n, x, y0) && (x, y0) != (x0, y0);
    RowPoint(f, y0, 0, n, x0);
    RowsPoint(f, n, 0, n, y0);
  }

  /** Changing f at one grid cell changes the grid sum by the difference there. */
  lemma GridUpdate(n: nat, f: (int, int) -> real, g: (int, int) -> real, x0: int, y0: int)
    requires OnGrid(n, x0, y0)
    requires forall x, y :: OnGrid(n, x, y) && (x, y) != (x0, y0) ==> f(x, y) == g(x, y)
    ensures GridSum(n, g) == GridSum(n, f) + (g(x0, y0) - f(x0, y0))
  {
    var d := (x, y) => if (x, y) == (x0, y0) then g(x0, y0) - f(x0, y0) else 0.0;
    GridPoint(n, d, x0, y0);
    GridAdd(n, f, d, g);
  }
}

=== FILE: tiles.dfy ===
/**
  The tile view: a 7 x 6 board of day tiles. The component lays the tracker's
  daily counts out in a flat list of 42 values, padded with -1 (no tile) and
  -2 (a day not reached yet), and the fragment shader picks the value under a
  pixel and classifies it against the goal (`limit`).
 */
module Tiles {
  import opened Wrappers
  import opened Palette

  /** Board columns and rows (`spanX`, `spanY`). */
  const SpanX: int := 7
  const SpanY: int := 6
  /** Number of values the fragment indexes: SpanX * SpanY. */
  const TileCount: int := 42
  /** Padding tiles before the first day and after the last day slot. */
  const Leading: int := 6
  const Trailing: int := 5
  /** Day slots between the paddings. */
  const DaySlots: int := 31
  /** The value of a padding tile. */
  const Padding: int := -1
  /** The value of a day slot the tracker has not reached. */
  const Unfilled: int := -2

  /** The error `new Array(31 - n)` raises for a negative length. */
  datatype LayoutError = InvalidArrayLength

  /** `new Array(n).fill(v)`. */
  function Repeat(n: nat, v: int): (r: seq<int>)
    ensures |r| == n
    ensures forall i :: 0 <= i < n ==> r[i] == v
  {
    seq(n, _ => v)
  }

  /**
    `valuesState`: six padding tiles, the tracker's counts, unfilled slots up
    to 31 days, five padding tiles. More than 31 counts make the filler's
    length negative, which throws.
   */
  function ValuesState(tracker: seq<int>): (r: Result<seq<int>, LayoutError>)
    ensures r.Ok? <==> |tracker| <= DaySlots
    ensures r.Ok? ==> |r.value| == TileCount == SpanX * SpanY
    ensures r.Ok? ==> forall i :: 0 <= i < Leading ==> r.value[i] == Padding
    ensures r.Ok? ==> forall i :: TileCount - Trailing <= i < TileCount ==> r.value[i] == Padding
    ensures r.Ok? ==> forall d :: 0 <= d < |tracker| ==> r.value[Leading + d] == tracker[d]
    ensures r.Ok? ==> forall i :: Leading + |tracker| <= i < Leading + DaySlots ==> r.value[i] == Unfilled
  {
    if |tracker| > DaySlots then Err(InvalidArrayLength)
    else Ok(Repeat(Leading, Padding) + tracker + Repeat(DaySlots - |tracker|, Unfilled) + Repeat(Trailing, Padding))
  }

  // ------------------------------------------------------------------ reading the days back

  /** The day values from index i on: up to the first unfilled slot or the end of the day slots. */
  function DaysFrom(values: seq<int>, i: nat): seq<int>
    decreases Leading + DaySlots - i
  {
    if i >= Leading + DaySlots || i >= |values| || values[i] == Unfilled then []
    else [values[i]] + DaysFrom(values, i + 1)
  }

  /** The tracker counts a laid-out list shows. */
  function Days(values: seq<int>): seq<int>
  {
    DaysFrom(values, Leading)
  }

  lemma {:induction false} DaysFromSuffix(tracker: seq<int>, values: seq<int>, d: nat)
    requires |tracker| <= DaySlots && d <= |tracker|
    requires forall k :: 0 <= k < |tracker| ==> tracker[k] != Unfilled
    requires ValuesState(tracker) == Ok(values)
    ensures DaysFrom(values, Leading + d) == tracker[d..]
    decreases |tracker| - d
  {
    if d < |tracker| {
      DaysFromSuffix(tracker, values, d + 1);
      assert tracker[d..] == [tracker[d]] + tracker[d + 1..];
    } else if d < DaySlots {
      assert values[Leading + d] == Unfilled;
    }
  }

  /**
    The layout loses nothing: a tracker list that fits, and whose counts are
    never the unfilled marker, is read back unchanged from its tiles.
   */
  lemma DaysRoundTrip(tracker: seq<int>)
    requires |tracker| <= DaySlots
    requires forall k :: 0 <= k < |tracker| ==> tracker[k] != Unfilled
    ensures ValuesState(tracker).Ok? && Days(ValuesState(tracker).value) == tracker
  {
    DaysFromSuffix(tracker, ValuesState(tracker).value, 0);
  }

  // ------------------------------------------------------------------ the fragment

  /** The value index of the tile in column x, row y: `y * span.x + x`. */
  function TileIndex(x: int, y: int): int
  {
    y * SpanX + x
  }

  predicate OnBoard(x: int, y: int)
  {
    0 <= x < SpanX && 0 <= y < SpanY
  }

  /** The tile a value index belongs to. */
  function TileOf(i: int): (int, int)
  {
    (i % SpanX, i / SpanX)
  }

  /** Tile indexing is a bijection between the board and the 42 values, with TileOf as inverse. */
  lemma TileIndexBijection(x: int, y: int, i: int)
    ensures OnBoard(x, y) ==> 0 <= TileIndex(x, y) < TileCount && TileOf(TileIndex(x, y)) == (x, y)
    ensures 0 <= i < TileCount ==> OnBoard(TileOf(i).0, TileOf(i).1) && TileIndex(TileOf(i).0, TileOf(i).1) == i
  {
  }

  /** Distinct tiles read distinct values. */
  lemma TileIndexInjective(x1: int, y1: int, x2: int, y2: int)
    requires OnBoard(x1, y1) && OnBoard(x2, y2) && (x1, y1) != (x2, y2)
    ensures TileIndex(x1, y1) != TileIndex(x2, y2)
  {
    TileIndexBijection(x1, y1, 0);
    TileIndexBijection(x2, y2, 0);
  }

  /**
    The tile under texture coordinate (u, v): `floor(u * span.x)` and
    `floor((1 - v) * span.y)`; row 0 is the top of the board.
   */
  function FragmentTile(u: real, v: real): (t: (int, int))
    requires 0.0 <= u < 1.0 && 0.0 < v <= 1.0
    ensures OnBoard(t.0, t.1)
    ensures t.0 as real <= u * SpanX as real < t.0 as real + 1.0
    ensures t.1 as real <= (1.0 - v) * SpanY as real < t.1 as real + 1.0
  {
    ((u * SpanX as real).Floor, ((1.0 - v) * SpanY as real).Floor)
  }

  /** `i32(limit)`: the u32 goal reinterpreted as a signed 32-bit integer. */
  function AsI32(limit: int): (r: int)
    requires 0 <= limit < 0x1_0000_0000
    ensures -0x8000_0000 <= r < 0x8000_0000
    ensures (r - limit) % 0x1_0000_0000 == 0
  {
    if limit < 0x8000_0000 then limit else limit - 0x1_0000_0000
  }

  /** The fragment's classification of a value against the goal: padding is clear, counts below the goal tan, others green. */
  function TileShade(value: int, limit: int): Shade
    requires 0 <= limit < 0x1_0000_0000
  {
    if value == Padding then Clear
    else if value < AsI32(limit) then Tan
    else Green
  }

  /**
    What the board shows for a tracker list that fits and a goal below 2^31:
    padding tiles are clear, a day is tan until its count reaches the goal and
    green from then on, and days not reached yet are tan.
   */
  lemma BoardShading(tracker: seq<int>, limit: int, x: int, y: int)
    requires |tracker| <= DaySlots
    requires forall k :: 0 <= k < |tracker| ==> 0 <= tracker[k]
    requires 0 <= limit < 0x8000_0000
    requires OnBoard(x, y)
    ensures var i := TileIndex(x, y);
            var s := TileShade(ValuesState(tracker).value[i], limit);
            (s == Clear <==> i < Leading || Leading + DaySlots <= i)
            && (Leading <= i < Leading + |tracker| ==> (s == Tan <==> tracker[i - Leading] < limit))
            && (Leading + |tracker| <= i < Leading + DaySlots ==> s == Tan)
  {
    TileIndexBijection(x, y, 0);
  }

  /**
    On screen, a day's colour tells whether its count reached the goal: the tile
    is drawn in the tan colour exactly when the count is below the goal, and a
    day tile is never drawn with the clear colour.
   */
  lemma DayColourShowsGoal(tracker: seq<int>, limit: int, x: int, y: int)
    requires |tracker| <= DaySlots
    requires forall k :: 0 <= k < |tracker| ==> 0 <= tracker[k]
    requires 0 <= limit < 0x8000_0000
    requires OnBoard(x, y) && Leading <= TileIndex(x, y) < Leading + |tracker|
    ensures var c := Rgb(TileShade(ValuesState(tracker).value[TileIndex(x, y)], limit));
            (c == Rgb(Tan) <==> tracker[TileIndex(x, y) - Leading] < limit)
            && c != Rgb(Clear)
  {
    BoardShading(tracker, limit, x, y);
    var s := TileShade(ValuesState(tracker).value[TileIndex(x, y)], limit);
    if s != Tan {
      ShadesAreDistinct(s, Tan);
    }
    ShadesAreDistinct(s, Clear);
  }
}

=== FILE: velocity.dfy ===
/**
  The velocity rule `computeVelocity`: a cell's next velocity is the cheapest
  of "stay" and the four neighbour directions it may flow into, where moving
  costs the neighbour's density plus a gravity term, and ties are broken by a
  pseudo-random draw.

  The pseudo-random generator is not modelled: each draw is an arbitrary real
  `u`, and the model applies `fract` to it as the generator does, so the pick
  index is floor(fract(u) * count), always below the number of tied choices.
 */
module Velocity {
  import opened Grid
  import opened Obstacles

  /** A direction of flow, in cells. */
  datatype Offset = Offset(dx: int, dy: int)

  const Stay: Offset := Offset(0, 0)

  /** `neighbor_offsets`, in the order the loop visits them. */
  const NeighborOffsets: seq<Offset> := [Offset(0, 1), Offset(0, -1), Offset(1, 0), Offset(-1, 0)]

  /** Every direction a cell may take: "stay" (the initial choice) and then the neighbours. */
  const Options: seq<Offset> := [Stay, Offset(0, 1), Offset(0, -1), Offset(1, 0), Offset(-1, 0)]

  /** `gravity_cost`. */
  const GravityCost: real := 0.5

  /** Length of the shader's `dir_choices` array. */
  const DirChoiceSlots: int := 4

  /** Cost of flowing from (x, y) by a neighbour offset: its density plus dy times the gravity cost. */
  function NeighborCost(b: Buffer, x: int, y: int, o: Offset): real
  {
    Read(b, x + o.dx, y + o.dy).z + (o.dy as real) * GravityCost
  }

  /** Cost of option k: the cell's own density for "stay", the neighbour cost otherwise. */
  function OptionCost(b: Buffer, x: int, y: int, k: int): real
    requires 0 <= k < |Options|
  {
    if k == 0 then Read(b, x, y).z else NeighborCost(b, x, y, Options[k])
  }

  /** Option k may be chosen: "stay" always, a neighbour when mass may flow into it. */
  predicate Eligible(obs: ObstacleSet, x: int, y: int, k: int)
    requires 0 <= k < |Options|
  {
    k == 0 || IsValidFlowOut(obs, x + Options[k].dx, y + Options[k].dy)
  }

  // ------------------------------------------------------------------ reference definition

  /** The least cost among the eligible options 0 .. k - 1. */
  function MinCostAmong(b: Buffer, obs: ObstacleSet, x: int, y: int, k: int): (m: real)
    requires 1 <= k <= |Options|
    ensures forall j :: 0 <= j < k && Eligible(obs, x, y, j) ==> m <= OptionCost(b, x, y, j)
    ensures exists j :: 0 <= j < k && Eligible(obs, x, y, j) && m == OptionCost(b, x, y, j)
    decreases k
  {
    if k == 1 then OptionCost(b, x, y, 0)
    else
      var m := MinCostAmong(b, obs, x, y, k - 1);
      if Eligible(obs, x, y, k - 1) && OptionCost(b, x, y, k - 1) < m then OptionCost(b, x, y, k - 1) else m
  }

  /** The least cost over every eligible option. */
  function MinCost(b: Buffer, obs: ObstacleSet, x: int, y: int): real
  {
    MinCostAmong(b, obs, x, y, |Options|)
  }

  /** The eligible options among 0 .. k - 1 whose cost is m, in visiting order. */
  function TiedAmong(b: Buffer, obs: ObstacleSet, x: int, y: int, m: real, k: int): (t: seq<Offset>)
    requires 0 <= k <= |Options|
    ensures |t| <= k
    decreases k
  {
    if k == 0 then []
    else
      TiedAmong(b, obs, x, y, m, k - 1)
      + (if Eligible(obs, x, y, k - 1) && OptionCost(b, x, y, k - 1) == m then [Options[k - 1]] else [])
  }

  /** Every option in the tied list is eligible and costs m. */
  lemma {:induction false} TiedMembers(b: Buffer, obs: ObstacleSet, x: int, y: int, m: real, k: int, o: Offset)
    requires 0 <= k <= |Options|
    requires o in TiedAmong(b, obs, x, y, m, k)
    ensures exists j :: 0 <= j < k && Options[j] == o && Eligible(obs, x, y, j) && OptionCost(b, x, y, j) == m
    decreases k
  {
    if o !in TiedAmong(b, obs, x, y, m, k - 1) {
      assert Options[k - 1] == o;
    } else {
      TiedMembers(b, obs, x, y, m, k - 1, o);
    }
  }

  /** An eligible option that costs m is in the tied list. */
  lemma {:induction false} TiedContains(b: Buffer, obs: ObstacleSet, x: int, y: int, m: real, k: int, j: int)
    requires 0 <= j < k <= |Options|
    requires Eligible(obs, x, y, j) && OptionCost(b, x, y, j) == m
    ensures Options[j] in TiedAmong(b, obs, x, y, m, k)
    decreases k
  {
    if j < k - 1 {
      TiedContains(b, obs, x, y, m, k - 1, j);
    }
  }

  // ------------------------------------------------------------------ the loop as written

  /**
    One iteration of the loop in `computeVelocity`, on neighbour i: skipped
    when mass may not flow into it, appended to the choices on a tie with the
    least cost so far, and made the only choice when strictly cheaper.
   */
  function Visit(b: Buffer, obs: ObstacleSet, x: int, y: int, i: int, least: real, choices: seq<Offset>): (real, seq<Offset>)
    requires 0 <= i < |NeighborOffsets|
  {
    // neighbour i is option i + 1
    var cost := OptionCost(b, x, y, i + 1);
    if !Eligible(obs, x, y, i + 1) then (least, choices)
    else if cost == least then (least, choices + [Options[i + 1]])
    else if cost < least then (cost, [Options[i + 1]])
    else (least, choices)
  }

  /** Iterations i .. 3 of the loop; returns the final least cost and the tied choices. */
  function Scan(b: Buffer, obs: ObstacleSet, x: int, y: int, i: int, least: real, choices: seq<Offset>): (real, seq<Offset>)
    requires 0 <= i <= |NeighborOffsets|
    decreases |NeighborOffsets| - i
  {
    if i == |NeighborOffsets| then (least, choices)
    else
      var next := Visit(b, obs, x, y, i, least, choices);
      Scan(b, obs, x, y, i + 1, next.0, next.1)
  }

  /** No eligible option among the first k costs less than m, so none is tied at a smaller cost. */
  lemma {:induction false} NoneTiedBelow(b: Buffer, obs: ObstacleSet, x: int, y: int, c: real, k: int)
    requires 0 <= k <= |Options|
    requires forall j :: 0 <= j < k && Eligible(obs, x, y, j) ==> c < OptionCost(b, x, y, j)
    ensures TiedAmong(b, obs, x, y, c, k) == []
    decreases k
  {
    if k > 0 {
      NoneTiedBelow(b, obs, x, y, c, k - 1);
    }
  }

  /** A strictly cheaper eligible option i + 1 becomes the only tied option at the new minimum. */
  lemma CheaperResetsTies(b: Buffer, obs: ObstacleSet, x: int, y: int, i: int)
    requires 0 <= i < |NeighborOffsets|
    requires Eligible(obs, x, y, i + 1)
    requires OptionCost(b, x, y, i + 1) < MinCostAmong(b, obs, x, y, i + 1)
    ensures MinCostAmong(b, obs, x, y, i + 2) == OptionCost(b, x, y, i + 1)
    ensures TiedAmong(b, obs, x, y, OptionCost(b, x, y, i + 1), i + 2) == [Options[i + 1]]
  {
    NoneTiedBelow(b, obs, x, y, OptionCost(b, x, y, i + 1), i + 1);
  }

  /** Option i + 1 lowers the minimum exactly when it is eligible and strictly cheaper. */
  lemma MinCostStep(b: Buffer, obs: ObstacleSet, x: int, y: int, i: int)
    requires 0 <= i < |NeighborOffsets|
    ensures var m := MinCostAmong(b, obs, x, y, i + 1);
            MinCostAmong(b, obs, x, y, i + 2)
            == if Eligible(obs, x, y, i + 1) && OptionCost(b, x, y, i + 1) < m then OptionCost(b, x, y, i + 1) else m
  {
  }

  /**
    One loop iteration keeps the invariant: from the minimum and tied list of
    options 0 .. i it computes those of options 0 .. i + 1.
   */
  lemma ScanStep(b: Buffer, obs: ObstacleSet, x: int, y: int, i: int)
    requires 0 <= i < |NeighborOffsets|
    ensures var m := MinCostAmong(b, obs, x, y, i + 1);
            var m' := MinCostAmong(b, obs, x, y, i + 2);
            Visit(b, obs, x, y, i, m, TiedAmong(b, obs, x, y, m, i + 1)) == (m', TiedAmong(b, obs, x, y, m', i + 2))
  {
    var m := MinCostAmong(b, obs, x, y, i + 1);
    var cost := OptionCost(b, x, y, i + 1);
    var t := TiedAmong(b, obs, x, y, m, i + 1);
    MinCostStep(b, obs, x, y, i);
    if !Eligible(obs, x, y, i + 1) || m < cost {
      assert TiedAmong(b, obs, x, y, m, i + 2) == t;
      assert Visit(b, obs, x, y, i, m, t) == (m, t);
    } else if cost == m {
      assert TiedAmong(b, obs, x, y, m, i + 2) == t + [Options[i + 1]];
      assert Visit(b, obs, x, y, i, m, t) == (m, t + [Options[i + 1]]);
    } else {
      CheaperResetsTies(b, obs, x, y, i);
      assert Visit(b, obs, x, y, i, m, t) == (cost, [Options[i + 1]]);
    }
  }

  /**
    The loop invariant: once options 0 .. i have been visited, the least cost
    so far is their minimum and the choices are exactly their tied options.
   */
  lemma {:induction false} ScanInvariant(b: Buffer, obs: ObstacleSet, x: int, y: int, i: int)
    requires 0 <= i <= |NeighborOffsets|
    ensures var m := MinCostAmong(b, obs, x, y, i + 1);
            Scan(b, obs, x, y, i, m, TiedAmong(b, obs, x, y, m, i + 1)) == (MinCost(b, obs, x, y), TiedAmong(b, obs, x, y, MinCost(b, obs, x, y), |Options|))
    decreases |NeighborOffsets| - i
  {
    if i < |NeighborOffsets| {
      ScanStep(b, obs, x, y, i);
      ScanInvariant(b, obs, x, y, i + 1);
    }
  }

  /** The tie list `computeVelocity` draws from, with room for all five options. */
  function Ties(b: Buffer, obs: ObstacleSet, x: int, y: int): seq<Offset>
  {
    Scan(b, obs, x, y, 0, Read(b, x, y).z, [Stay]).1
  }

  /**
    The loop computes the reference definition: the tie list holds exactly the
    eligible options whose cost is the minimum, in visiting order.
   */
  lemma TiesAreTheCheapestOptions(b: Buffer, obs: ObstacleSet, x: int, y: int)
    ensures Ties(b, obs, x, y) == TiedAmong(b, obs, x, y, MinCost(b, obs, x, y), |Options|)
    ensures 1 <= |Ties(b, obs, x, y)| <= |Options|
  {
    var m := MinCostAmong(b, obs, x, y, 1);
    assert TiedAmong(b, obs, x, y, m, 1) == [Stay];
    ScanInvariant(b, obs, x, y, 0);
    var j :| 0 <= j < |Options| && Eligible(obs, x, y, j) && MinCost(b, obs, x, y) == OptionCost(b, x, y, j);
    TiedContains(b, obs, x, y, MinCost(b, obs, x, y), |Options|, j);
  }

  /** The loop only looks at densities: two buffers with equal densities give the same scan. */
  lemma {:induction false} ScanReadsDensityOnly(b: Buffer, b': Buffer, obs: ObstacleSet, x: int, y: int, i: int, least: real, choices: seq<Offset>)
    requires forall j :: 0 <= j < Capacity ==> b[j].z == b'[j].z
    requires 0 <= i <= |NeighborOffsets|
    ensures Scan(b, obs, x, y, i, least, choices) == Scan(b', obs, x, y, i, least, choices)
    decreases |NeighborOffsets| - i
  {
    if i < |NeighborOffsets| {
      assert OptionCost(b, x, y, i + 1) == OptionCost(b', x, y, i + 1);
      var next := Visit(b, obs, x, y, i, least, choices);
      assert Visit(b', obs, x, y, i, least, choices) == next;
      ScanReadsDensityOnly(b, b', obs, x, y, i + 1, next.0, next.1);
    }
  }

  /** Rewriting velocities leaves every tie list unchanged. */
  lemma TiesReadDensityOnly(b: Buffer, b': Buffer, obs: ObstacleSet, x: int, y: int)
    requires forall j :: 0 <= j < Capacity ==> b[j].z == b'[j].z
    ensures Ties(b, obs, x, y) == Ties(b', obs, x, y)
  {
    assert Read(b, x, y).z == Read(b', x, y).z;
    ScanReadsDensityOnly(b, b', obs, x, y, 0, Read(b, x, y).z, [Stay]);
  }

  // ------------------------------------------------------------------ the random pick

  /** `fract`: the fractional part, in [0, 1). */
  function Fract(u: real): (f: real)
    ensures 0.0 <= f < 1.0
    ensures (u - f).Floor as real == u - f
  {
    u - u.Floor as real
  }

  /** `u32(rand01() * f32(count))` with the draw's fractional part standing for `rand01()`. */
  function PickIndex(u: real, count: int): (k: int)
    requires 1 <= count
    ensures 0 <= k < count
  {
    var f := Fract(u);
    assert f * count as real < count as real by {
      assert count as real - f * count as real == (1.0 - f) * count as real;
    }
    (f * count as real).Floor
  }

  /**
    `computeVelocity` at (x, y) with random draw u: one of the cheapest
    eligible directions. "Stay" or a neighbour that is on the grid and outside
    every enabled obstacle, whose cost is no greater than staying or moving to
    any other eligible neighbour.
   */
  function ComputeVelocity(b: Buffer, obs: ObstacleSet, x: int, y: int, u: real): (v: Offset)
    ensures v in Options
    ensures v == Stay || IsValidFlowOut(obs, x + v.dx, y + v.dy)
    ensures v in Ties(b, obs, x, y)
    ensures exists k :: 0 <= k < |Options| && Options[k] == v && Eligible(obs, x, y, k) && OptionCost(b, x, y, k) == MinCost(b, obs, x, y)
    ensures MinCost(b, obs, x, y) <= Read(b, x, y).z
    ensures forall k :: 1 <= k < |Options| && Eligible(obs, x, y, k) ==> MinCost(b, obs, x, y) <= OptionCost(b, x, y, k)
  {
    TiesAreTheCheapestOptions(b, obs, x, y);
    var t := Ties(b, obs, x, y);
    var v := t[PickIndex(u, |t|)];
    TiedMembers(b, obs, x, y, MinCost(b, obs, x, y), |Options|, v);
    v
  }

  // ------------------------------------------------------------------ the fixed-size tie array

  /**
    The loop as the shader writes it, into `dir_choices`, an array of
    DirChoiceSlots entries, with `count` as `dir_choice_count`. A store past the
    end of the array is not performed (one of the behaviours the WGSL
    specification permits for an out-of-bounds store) but the count still grows.
   */
  function ScanSlots(b: Buffer, obs: ObstacleSet, x: int, y: int, i: int, least: real, slots: seq<Offset>, count: nat): (r: (seq<Offset>, nat))
    requires 0 <= i <= |NeighborOffsets|
    requires |slots| == DirChoiceSlots
    ensures |r.0| == DirChoiceSlots
    decreases |NeighborOffsets| - i
  {
    if i == |NeighborOffsets| then (slots, count)
    else
      var o := NeighborOffsets[i];
      var cost := NeighborCost(b, x, y, o);
      if !IsValidFlowOut(obs, x + o.dx, y + o.dy) then ScanSlots(b, obs, x, y, i + 1, least, slots, count)
      else if cost == least then
        ScanSlots(b, obs, x, y, i + 1, least, if count < DirChoiceSlots then slots[count := o] else slots, count + 1)
      else if cost < least then ScanSlots(b, obs, x, y, i + 1, cost, slots[0 := o], 1)
      else ScanSlots(b, obs, x, y, i + 1, least, slots, count)
  }

  /** `dir_choices` and `dir_choice_count` after the loop, as the shader computes them. */
  function SlotsAsWritten(b: Buffer, obs: ObstacleSet, x: int, y: int): (r: (seq<Offset>, nat))
    ensures |r.0| == DirChoiceSlots
  {
    ScanSlots(b, obs, x, y, 0, Read(b, x, y).z, [Stay, Stay, Stay, Stay], 1)
  }

  /**
    A board on which cell (5, 5) ties with all four neighbours: its own density
    is 1, the cell above (y + 1) holds 0.5 and the cell below (y - 1) holds 1.5,
    so with the gravity term every option costs exactly 1.
   */
  function FiveWayTieBoard(): Buffer
  {
    seq(Capacity, i => if i == Index(5, 6) then Cell(0, 0, 0.5, 0.0)
                       else if i == Index(5, 4) then Cell(0, 0, 1.5, 0.0)
                       else Cell(0, 0, 1.0, 0.0))
  }

  /**
    On that board, with no obstacle enabled, the shader's tie count reaches 5
    while `dir_choices` has 4 entries, so a draw whose fractional part is at
    least 0.8 selects index 4, past the end of the array. The five-entry tie
    list keeps every tied option and the pick stays in range.
   */
  lemma FiveWayTieOverflowsChoices(obs: ObstacleSet)
    requires forall j :: 0 <= j < MaxObstacles ==> !obs[j].enabled
    ensures SlotsAsWritten(FiveWayTieBoard(), obs, 5, 5).1 == 5 > DirChoiceSlots
    ensures PickIndex(0.9, 5) == 4 == |SlotsAsWritten(FiveWayTieBoard(), obs, 5, 5).0|
    ensures Ties(FiveWayTieBoard(), obs, 5, 5) == Options
  {
    var b := FiveWayTieBoard();
    forall o | o in NeighborOffsets
      ensures IsValidFlowOut(obs, 5 + o.dx, 5 + o.dy)
    {
      DisabledObstaclesAreInert(obs, 5 + o.dx, 5 + o.dy);
    }
    assert Index(5, 5) == 85 && Index(5, 6) == 101 && Index(5, 4) == 69 && Index(6, 5) == 86 && Index(4, 5) == 84;
    assert b[85].z == 1.0 && b[101].z == 0.5 && b[69].z == 1.5 && b[86].z == 1.0 && b[84].z == 1.0;
    assert Read(b, 5, 5).z == 1.0;
    assert Read(b, 5, 6).z == 0.5;
    assert Read(b, 5, 4).z == 1.5;
    assert Read(b, 6, 5).z == 1.0;
    assert Read(b, 4, 5).z == 1.0;
    assert (0.9 * 5 as real).Floor == 4;
  }
}

=== FILE: world.dfy ===
/**
  Grid initialisation (`mainInitWorld`): the lower half of the grid is filled
  with still water whose density falls off linearly with height; obstacle
  cells and the upper half start empty.
 */
module World {
  import opened Grid
  import opened Obstacles
  import opened Velocity
  import opened Flow

  /** Height of the initial body of water (`gridSize / 2`, integer division). */
  const OceanRows: int := GridSize / 2

  /** A cell of the initial ocean: on the grid, outside every obstacle, below OceanRows. */
  predicate IsOcean(obs: ObstacleSet, x: int, y: int)
  {
    IsValidFlowOut(obs, x, y) && y < OceanRows
  }

  /** The initial value of cell (x, y). */
  function InitCell(obs: ObstacleSet, x: int, y: int): Cell
  {
    if !IsValidFlowOut(obs, x, y) then Empty
    else if y < OceanRows then Cell(0, 0, 1.0 - (y as real) / (GridSize as real / 2.0), 0.0)
    else Empty
  }

  /**
    Initialise the output buffer: every grid cell is still, ocean cells hold
    density 1 - y / (gridSize / 2) and all other grid cells are empty. Cells
    beyond the grid are not written.
   */
  function InitWorld(output: Buffer, obs: ObstacleSet): (r: Buffer)
    ensures forall x, y :: IsValidCoord(x, y) ==> Read(r, x, y).vx == 0 && Read(r, x, y).vy == 0 && Read(r, x, y).w == 0.0
    ensures forall x, y :: IsValidCoord(x, y) && !IsOcean(obs, x, y) ==> Read(r, x, y).z == 0.0
    ensures forall x, y :: IsOcean(obs, x, y) ==> Read(r, x, y).z == 1.0 - (y as real) / 8.0
    ensures forall x, y :: IsOcean(obs, x, y) ==> 0.0 < Read(r, x, y).z <= 1.0
    ensures forall i :: CellCount <= i < Capacity ==> r[i] == output[i]
  {
    var cells := seq(Capacity, i requires 0 <= i < Capacity =>
                     if i < CellCount then InitCell(obs, ColumnOf(i), RowOf(i)) else output[i]);
    assert |cells| == Capacity;
    var r: Buffer := cells;
    assert forall x, y :: IsValidCoord(x, y) ==> Read(r, x, y) == InitCell(obs, x, y) by {
      forall x, y | IsValidCoord(x, y)
        ensures Read(r, x, y) == InitCell(obs, x, y)
      {
        IndexBijection(x, y, 0);
      }
    }
    r
  }

  /** The initial world satisfies the invariant every sub-step keeps. */
  lemma InitWorldIsWellFormed(output: Buffer, obs: ObstacleSet)
    ensures WellFormed(InitWorld(output, obs))
  {
    var r := InitWorld(output, obs);
    forall x, y | IsValidCoord(x, y)
      ensures 0.0 <= Read(r, x, y).z && PointsOnGrid(r, x, y)
    {
      assert Offset(0, 0) == Options[0];
    }
  }

  /**
    Without obstacles, the initial water is exactly the lower half of the grid:
    a grid cell holds water if and only if it lies in the first OceanRows rows.
   */
  lemma InitialWaterFillsLowerHalf(output: Buffer, obs: ObstacleSet, x: int, y: int)
    requires forall j :: 0 <= j < MaxObstacles ==> !obs[j].enabled
    requires IsValidCoord(x, y)
    ensures 0.0 < Read(InitWorld(output, obs), x, y).z <==> y < OceanRows
  {
    DisabledObstaclesAreInert(obs, x, y);
  }
}

=== FILE: wrappers.dfy ===
/** Failure-compatible wrappers used where the modelled code can fail or yield "no value". */
module Wrappers {

  /** A value that may be absent (JavaScript's `undefined` or `NaN`). */
  datatype Option<+T> = None | Some(value: T)

  /** Either a computed value or the error the modelled code raises. */
  datatype Result<+T, +E> = Ok(value: T) | Err(error: E)
}
